=== FILE: README.md ===
# Vertice spawn-point analysis, modelled in Dafny

Vertice reads Quake III map files (`.bsp`) and finds the deathmatch spawn
points in each one. For every spawn point it reports how far the point is
from each face of the box spanned by all of the map's spawn points, and it
lays the results out in a PDF. This project models that pipeline as pure
functions on a map file's byte image:

- **`Lump`** (`lump.dfy`):
  - the header constants;
  - `read_lump_info`, which decodes the (offset, length) directory entry at byte 140 + 8·index as two little-endian 32-bit signed integers;
  - the `seek`/`read` of the entity lump's bytes.
- **`Text`** (`text.dfy`):
  - Python's `str.split` with a one-character separator and its inverse `join`;
  - the substring test `lit in s`;
  - decimal rendering of the map counter.
- **`Geometry`** (`geometry.dfy`): points, `calculate_map_dimensions` (the per-axis extents), and the six clearances of a point against a box.
- **`Entities`** (`entities.dfy`): `parse_entities`, the scan of the decoded entity text.
  - It splits the text on `}` and keeps the fragments that contain `"classname" "info_player_deathmatch"`.
  - In each kept fragment it takes the first line mentioning `"origin"`, and from that line the fourth `"`-segment, split on spaces.
  - It converts the tokens with `x, y, z = map(float, …)`.
  - A missing segment, a bad number or a wrong token count raises an error, and the error ends the scan.
- **`Report`** (`report.dfy`):
  - `process_map`, which produces the map's flat list of output lines (a 12-line header, then 16 lines per spawn point);
  - the reader side of `generate_pdf`, which reads that list back by index arithmetic (`idx = 11`, `while idx + 15 < len`, step 16).
- **`Run`** (`run.dfy`): `main`'s loop over map files, with the global map counter passed explicitly from one call to the next.
- **`WellFormed`** (`wellformed.dfy`):
  - entity text built from `{ "origin" "…" / classname }` records, and a BSP image whose entity lump follows the header;
  - what the scanner and `process_map` make of them, end to end;
  - a few concrete cases of the error behaviour.

Three things the Python code leaves to its runtime are parameters, held in a `Codec` value:
- lossy UTF-8 decoding (`decode('utf-8', errors='ignore')`);
- `float(token)`, which yields `None` where Python raises `ValueError`;
- `f"{x}"` on a float.

Coordinates are exact reals.

What vertice.py does that a reader might not expect, and the model does too:
- A malformed origin line is not skipped. `line.split('"')[3]` raises `IndexError`, and the float conversion or the unpacking raises `ValueError`. Both are errors here (`ParseError`), and they end `parse_entities`.
- `main` catches nothing, so the first map that raises ends the run (`Run.RunMaps`, `Run.RunMapsFailure`). It does not skip to the next file.
- `read_lump_info` fails only when the 8 bytes at 140 + 8·index are not all present. For index 0 that means a file shorter than 148 bytes. Nothing checks that a full header is present.
- The directory entry is read at `HEADER_SIZE + index * LUMP_SIZE` = 140 + 8·index, as the code computes it. `LUMP_MODELS = 14` is declared but never used.
- The entity lump's length is passed straight to `file.read`. A length of -1 reads to the end of the file, and a lower one raises `ValueError`.
- `struct.unpack('ii', …)` uses the host byte order. The model fixes it to little-endian.
- `map_count` is incremented before the file is opened, so it also counts maps that are skipped or that raise. In `process_map`, the line appended before the `return` for a map without spawn points is discarded, so the result is `None`.
- The lazy `map` is pulled at most four times. A token `float()` rejects among the first four raises `ValueError` for the number. Otherwise a count other than three raises the unpacking error.

## Model

| member | source | states |
|---|---|---|
| Lump.DecodeEncode | vertice.py:25 | Decoding the 4-byte little-endian encoding of any 32-bit signed integer gives the integer back |
| Lump.EncodeDecode | vertice.py:25 | Every 4-byte word is the encoding of the value it decodes to, so no byte pattern is lost or merged |
| Lump.ReadLumpInfo | vertice.py:23-26 | The read succeeds exactly when the 8 bytes at 140 + 8·index lie inside the file. The two values are then 32-bit signed integers whose encodings are those bytes. A short read reports how many bytes were available |
| Lump.ReadAfterWrite | vertice.py:23-26 | Writing an entry's encoding at its directory position and reading that entry back returns the written offset and length |
| Lump.ReadOtherAfterWrite | vertice.py:23-26 | Writing one directory entry does not change what any other entry reads as |
| Lump.ReadBytes | vertice.py:29-30 | The read succeeds exactly when the offset is non-negative and the length is at least -1. A negative offset fails as the seek does, and a length below -1 fails as a buffered binary read does. Otherwise the result is a prefix of the file from the offset: empty past the end, at most `length` bytes, and cut short only by the end of the file, so a length of -1 reads to the end |
| Text.Split | vertice.py:32 | `split` on one character yields one more piece than there are separators, and no piece contains the separator |
| Text.JoinSplit | vertice.py:32 | Joining the pieces of a split with the separator restores the original text |
| Text.SplitJoin | vertice.py:32 | Splitting separator-free pieces joined by the separator returns exactly those pieces |
| Text.ContainsIffOccurs | vertice.py:33 | The `in` test holds exactly when the literal occurs at some position of the text |
| Text.DecimalValue | vertice.py:66 | The decimal rendering of the counter reads back as the counter |
| Text.DecimalInjective | vertice.py:66 | Distinct counter values render as distinct digit strings |
| Entities.FirstMatch | vertice.py:35-40 | The result is the index of the first line containing the key, with no earlier line containing it. `None` means no line contains it |
| Entities.ParseTriple | vertice.py:38 | Unpacking succeeds exactly when there are three tokens and all convert, and then the point is their values in order. A conversion error occurs exactly when one of the first four tokens is rejected, and names the first rejected token, every earlier one having converted. An arity error carries the token count, which is not three |
| Entities.ParseOrigin | vertice.py:37-38 | A line with fewer than four `"`-segments, and only such a line, fails with the missing-index error |
| Entities.OriginFourthSegment | vertice.py:37-38 | On any line made of three `"`-free segments, each followed by a `"`, and then a `"`-free value that ends the line or is followed by another `"`, the origin read is the unpacking of that value split on single spaces |
| Entities.FragmentPoint | vertice.py:33-40 | A fragment without the deathmatch literal contributes nothing, and so does a spawn fragment without an origin line. Otherwise the fragment yields the point read from its first origin line, or that read's error |
| Entities.CollectPoints | vertice.py:31-41 | A successful scan yields at most one point per spawn fragment. A scan with no spawn fragments yields no points |
| Entities.ParseEntities | vertice.py:28-41 | At most one point more than there are `}` characters. Text whose `}`-fragments hold no deathmatch literal yields the empty list |
| Entities.CollectPointsSources | vertice.py:31-41 | In a successful scan every fragment succeeds. Point k comes from the k-th contributing fragment, in increasing fragment order, and every other fragment contributes nothing |
| Entities.CollectPointsFailure | vertice.py:31-41 | A failed scan reports the error of the first fragment that fails, after every earlier fragment succeeded |
| Geometry.Extents | vertice.py:43-51 | Every point lies within the extents, and each of the six bounds is attained by some point |
| Geometry.ExtentsTightest | vertice.py:43-51 | Any box that holds every point contains the extents, so they are the smallest such box |
| Geometry.ExtentsSnoc | vertice.py:47-50 | One more point widens each axis range by that point's coordinate, as one loop iteration does |
| Geometry.FourPoints | vertice.py:43-51 | The origin plus points at 10 on X, 5 on Y and 2 on Z span X [0, 10], Y [0, 5], Z [0, 2] |
| Geometry.ClearanceOf | vertice.py:79-84 | Left plus right is the X extent, and likewise on Y and Z. All six clearances are non-negative exactly when the point lies within the box |
| Geometry.ClearancesOfExtents | vertice.py:65-84 | Against the map's own extents every spawn point has six non-negative clearances, and each face is touched (clearance 0) by some spawn point |
| Report.BasenameSuffix | vertice.py:66 | The base name is a suffix of the path, either the whole path or preceded by a '/' |
| Report.Basename | vertice.py:66 | The base name holds no '/' and is no longer than the path |
| Report.LabelInjective | vertice.py:66 | Two equal map labels carry the same counter value, whatever the file names |
| Report.LabelsDiffer | vertice.py:66 | Maps processed with different counter values are labelled differently |
| Report.Spawns | vertice.py:78-84 | One entry per spawn point, in discovery order. Each point's clearances against a box are all non-negative exactly when the point lies within the box, and on each axis they add up to the box's width |
| Report.BuildReport | vertice.py:65-84 | The report's box is the extents of the spawn points, and each point's clearances are its distances to that box's faces. It keeps every point in order and inside the extents, with non-negative clearances that add up to the axis extents |
| Report.Layout | vertice.py:66-100 | The list has 12 + 16n lines: the label at 0 and the X, Y, Z minima and maxima at 3, 4, 6, 7, 9, 10 |
| Report.BodyBlock | vertice.py:78-100 | Block k of the spawn section is spawn point k's 16 lines, numbered k + 1 |
| Report.LayoutPositions | vertice.py:78-100 | At idx = 11 + 16k, the reader finds these cells of point k: its "Spawn Point k+1" heading at idx+1; its coordinates at idx+4, 6 and 8; its six clearances at idx+10 to idx+15 |
| Report.SpawnTablesVisit | vertice.py:132-156 | The table loop visits exactly the positions idx + 16k whose last cell exists, in order, and none beyond |
| Report.SpawnTablesCount | vertice.py:132-156 | On a list of length 12 + 16n the loop builds exactly n tables |
| Report.ReadMapOutput | vertice.py:114-156 | `None` and lists of at most one line are skipped. Lists of 2 to 10 lines fail with an index error. Longer lists are read, titled by their first line |
| Report.ReadReports | vertice.py:114-156 | Reading the whole run succeeds exactly when every entry reads, and gives at most one view per entry |
| Report.ReadReportsFailure | vertice.py:114-123 | A failed read of the run reports the error of the first entry that fails, after every earlier entry was read |
| Report.ReadReportsAllShown | vertice.py:114-156 | When every entry reads as a page, the run's pages are those entries' pages, one each, in order |
| Report.LayoutReadBack | vertice.py:66-156 | Reading back the laid-out list gives exactly the page built from the structured report: label, extents and one table per spawn point in order |
| Report.LayoutTablesReadBack | vertice.py:78-156 | The table loop over a laid-out list yields one table per spawn point, in order |
| Report.SpawnPointsOf | vertice.py:57-60 | A file too short for the entity directory entry fails with the lump error that read_lump_info raises |
| Report.ProcessMap | vertice.py:53-102 | The counter goes up by one on every call. The call succeeds exactly when the spawn points are found, and returns `None` exactly when there are none. An error is passed through. A produced list has 12 + 16n lines and starts with the label for the new counter value |
| Report.ProcessMapReadBack | vertice.py:53-156 | What the PDF reader extracts from a processed map is the structured report of its spawn points, labelled with the new counter |
| Run.RunMaps | vertice.py:176-190 | A successful run yields one output per file and advances the counter by the number of files. A failed run stops after at least one and at most all files |
| Run.RunMapsOutputs | vertice.py:179-189 | Output i of a successful run is what processing file i returns with the counter at its starting value plus i |
| Run.RunMapsFailure | vertice.py:176-190 | A failed run carries the error of the first file whose processing raises. Every earlier file was processed without error, and the counter stands at that file's number: nothing after it runs |
| Run.MapStep | vertice.py:53-66 | process_map as a loop step advances the counter by one and labels each report with the value it advanced to |
| Run.RunLabels | vertice.py:179-189 | In a successful run the i-th report carries counter value start + i + 1 and the i-th file's name |
| WellFormed.ParseAll | vertice.py:38 | The reference reading of a list of origin values: all parse and give their points in order, or the result is the error of the first one that fails, every earlier one having parsed |
| WellFormed.RenderFragments | vertice.py:32 | Splitting entity text made of records on `}` gives the records and one empty tail |
| WellFormed.RecordPoint | vertice.py:33-40 | A spawn record contributes exactly the parse of its origin value, or that parse's error |
| WellFormed.CollectRecords | vertice.py:31-41 | Scanning the records plus the empty tail gives the reference reading |
| WellFormed.ParseRendered | vertice.py:28-41 | parse_entities on entity text made of records gives the reference reading: the points in record order, or the first record's error |
| WellFormed.OneSpawn | vertice.py:28-41 | The origin "1.5 -2.0 3.25" yields the single point (1.5, -2.0, 3.25) |
| WellFormed.TwoValues | vertice.py:38 | An origin with two values raises the unpacking error with count 2, and is not skipped |
| WellFormed.BadFourth | vertice.py:38 | With four values, a bad fourth raises the number error first |
| WellFormed.BadFifth | vertice.py:38 | With five values, the count error wins and the bad fifth is never converted |
| WellFormed.ImageEntities | vertice.py:23-30 | In a BSP image whose first directory entry holds (148 + padding length, lump size), with any bytes before and after the lump, the entry reads back as that pair and reading there returns exactly the lump |
| WellFormed.ImageSpawnPoints | vertice.py:57-60 | The spawn points of such an image are the entity scan of the decoded bytes at the entry's offset and length, whatever lies around them. A scan error comes back as the entity error |
| WellFormed.ProcessImage | vertice.py:53-102 | process_map on such an image, with any padding before and any bytes after the lump, advances the counter. It returns the error of the first bad origin, or `None` for no spawns, or the laid-out report of the parsed points |

## Left out

- File I/O (`open`, `seek`, `read`) is modelled on the file's byte image. A seek never fails except on a negative position.
- `Report.Codec`: lossy UTF-8 decoding, `float()` and float formatting are parameters rather than definitions. No property depends on how they work.
- `Geometry.Extents`: requires at least one point. The Python loop starts from ±infinity, and process_map only calls it when spawn points exist.
- `Geometry.FourPoints`: states only the extents of the example, not the clearances of its points, because the solver runs out of resource on `ClearanceOf` applied to literal reals.
- Report rendering with ReportLab is not modelled: page layout, styles, spacers, and the fixed title and timestamp paragraphs. The model covers what `generate_pdf` reads from each list, not how it draws it.
- `extract_and_process_pk3` (zip extraction, directory listing, `rmtree`) and `glob` are left out as file-system work. So is `main`'s dispatch on the `.bsp`/`.pk3` extension. `Run.RunMaps` takes the list of map files as given.
- `Report.Basename`: models `os.path.basename` as it behaves on POSIX hosts, where only '/' separates path components. On Windows, '\' and drive prefixes separate them too.
- `Report.Codec`: `float()` also accepts "inf", "nan" and their variants. Their values have no counterpart among Dafny's reals, so `number` cannot yield them, and maps whose origins use them are outside the model.
- `Report.ReadReports`: when skipped entries are mixed with shown ones, the order of the pages is given by the definition only. The lemmas cover runs where every entry is shown, and runs that fail.
- `print` and the `datetime` timestamps are left out: they are console output and clock reads.
- Floating-point arithmetic: coordinates and clearances are exact reals, so rounding in `x - min_x` and the like is not modelled.

=== FILE: entities.dfy ===
/** parse_entities: the brace-splitting heuristic that pulls deathmatch spawn
    origins out of the decoded entity lump. Number parsing (Python's
    `float()`) is a parameter: `number(t)` is `None` where `float(t)` raises. */
module Entities {
  import opened Wrappers
  import opened Text
  import opened Geometry

  /** The literal a fragment must contain to be a deathmatch spawn. */
  const Deathmatch: string := "\"classname\" \"info_player_deathmatch\""

  /** The literal that marks the origin line of a fragment. */
  const OriginKey: string := "\"origin\""

  datatype ParseError =
    | MissingValue               // IndexError: `line.split('"')[3]` on fewer than 4 segments
    | BadNumber(token: string)   // ValueError: `float(token)` rejects a token
    | WrongArity(count: nat)     // ValueError: unpacking a token count other than 3

  /** The index of the first line that contains `key`, the line the loop breaks on. */
  function FirstMatch(lines: seq<string>, key: string): (r: Option<nat>)
    ensures r.Some? ==> r.value < |lines| && Contains(lines[r.value], key)
    ensures r.Some? ==> forall j :: 0 <= j < r.value ==> !Contains(lines[j], key)
    ensures r.None? ==> forall j :: 0 <= j < |lines| ==> !Contains(lines[j], key)
    decreases |lines|
  {
    if |lines| == 0 then None
    else if Contains(lines[0], key) then Some(0)
    else match FirstMatch(lines[1..], key)
      case None => None
      case Some(i) => Some(i + 1)
  }

  /** The first token `float()` rejects. */
  function FirstUnparsable(toks: seq<string>, number: string -> Option<real>): (r: Option<nat>)
    ensures r.Some? ==> r.value < |toks| && number(toks[r.value]).None?
    ensures r.Some? ==> forall j :: 0 <= j < r.value ==> number(toks[j]).Some?
    ensures r.None? ==> forall j :: 0 <= j < |toks| ==> number(toks[j]).Some?
    decreases |toks|
  {
    if |toks| == 0 then None
    else if number(toks[0]).None? then Some(0)
    else match FirstUnparsable(toks[1..], number)
      case None => None
      case Some(i) => Some(i + 1)
  }

  /** `x, y, z = map(float, toks)`. The lazy map is pulled at most four times:
      three values, then one more to detect an excess, so a bad token among the
      first four raises before the count is checked. */
  function ParseTriple(toks: seq<string>, number: string -> Option<real>): (r: Result<Point, ParseError>)
    ensures r.Success? <==> |toks| == 3 && forall j :: 0 <= j < 3 ==> number(toks[j]).Some?
    ensures r.Success? ==>
              number(toks[0]) == Some(r.value.x) && number(toks[1]) == Some(r.value.y) && number(toks[2]) == Some(r.value.z)
    ensures r.Failure? && r.error.BadNumber? ==>
              r.error.token in toks[..if |toks| < 4 then |toks| else 4] && number(r.error.token).None?
    ensures r.Failure? ==>
              (r.error.BadNumber? <==> exists j :: 0 <= j < |toks| && j < 4 && number(toks[j]).None?)
    ensures r.Failure? && r.error.BadNumber? ==>
              exists j :: 0 <= j < |toks| && j < 4 && toks[j] == r.error.token && number(toks[j]).None?
                          && forall i :: 0 <= i < j ==> number(toks[i]).Some?
    ensures r.Failure? && r.error.WrongArity? ==> r.error.count == |toks| != 3
  {
    var m := if |toks| < 4 then |toks| else 4;
    match FirstUnparsable(toks[..m], number)
    case Some(i) =>
      assert forall j :: 0 <= j <= i ==> toks[..m][j] == toks[j];
      Failure(BadNumber(toks[i]))
    case None =>
      if |toks| != 3 then Failure(WrongArity(|toks|))
      else
        assert forall j :: 0 <= j < 3 ==> toks[..m][j] == toks[j];
        Success(Point(number(toks[0]).value, number(toks[1]).value, number(toks[2]).value))
  }

  /** The value of an origin line: the fourth `"`-segment, split on single spaces. */
  function ParseOrigin(line: string, number: string -> Option<real>): (r: Result<Point, ParseError>)
    ensures |Split(line, '"')| < 4 <==> r == Failure(MissingValue)
  {
    var segs := Split(line, '"');
    if |segs| < 4 then Failure(MissingValue)
    else ParseTriple(Split(segs[3], ' '), number)
  }

  /** On any line whose first three `"`-separated segments are followed by a
      fourth that ends the line or at another `"`, the origin read is the
      parse of that fourth segment split on single spaces. */
  lemma OriginFourthSegment(a: string, b: string, c: string, v: string, rest: string, number: string -> Option<real>)
    requires '"' !in a && '"' !in b && '"' !in c && '"' !in v
    requires rest == [] || rest[0] == '"'
    ensures ParseOrigin(a + ['"'] + b + ['"'] + c + ['"'] + v + rest, number) == ParseTriple(Split(v, ' '), number)
  {
    FourthPiece(a, b, c, v, rest, '"');
  }

  /** What one `}`-delimited fragment contributes: nothing unless it contains
      the deathmatch literal, and otherwise the origin on its first line
      mentioning `"origin"` (nothing when there is no such line). */
  function FragmentPoint(frag: string, number: string -> Option<real>): (r: Result<Option<Point>, ParseError>)
    ensures !Contains(frag, Deathmatch) ==> r == Success(None)
    ensures Contains(frag, Deathmatch) ==>
              match FirstMatch(Split(frag, '\n'), OriginKey)
              case None => r == Success(None)
              case Some(i) =>
                r == match ParseOrigin(Split(frag, '\n')[i], number)
                     case Success(p) => Success(Some(p))
                     case Failure(e) => Failure(e)
  {
    if !Contains(frag, Deathmatch) then Success(None)
    else
      var lines := Split(frag, '\n');
      match FirstMatch(lines, OriginKey)
      case None => Success(None)
      case Some(i) =>
        match ParseOrigin(lines[i], number)
        case Success(p) => Success(Some(p))
        case Failure(e) => Failure(e)
  }

  /** The number of fragments that contain the deathmatch literal. */
  function MatchingCount(frags: seq<string>): (n: nat)
    ensures n <= |frags|
    ensures n == 0 <==> forall i :: 0 <= i < |frags| ==> !Contains(frags[i], Deathmatch)
  {
    if |frags| == 0 then 0
    else (if Contains(frags[0], Deathmatch) then 1 else 0) + MatchingCount(frags[1..])
  }

  /** The loop over fragments: points in fragment order; the first error aborts. */
  function CollectPoints(frags: seq<string>, number: string -> Option<real>): (r: Result<seq<Point>, ParseError>)
    ensures r.Success? ==> |r.value| <= MatchingCount(frags)
    ensures MatchingCount(frags) == 0 ==> r == Success([])
    decreases |frags|
  {
    if |frags| == 0 then Success([])
    else
      match FragmentPoint(frags[0], number)
      case Failure(e) => Failure(e)
      case Success(head) =>
        match CollectPoints(frags[1..], number)
        case Failure(e) => Failure(e)
        case Success(tail) =>
          Success(match head case Some(p) => [p] + tail case None => tail)
  }

  /** parse_entities on the decoded entity text. */
  function ParseEntities(text: string, number: string -> Option<real>): (r: Result<seq<Point>, ParseError>)
    ensures r.Success? ==> |r.value| <= multiset(text)['}'] + 1
    ensures (forall i :: 0 <= i < |Split(text, '}')| ==> !Contains(Split(text, '}')[i], Deathmatch)) ==> r == Success([])
  {
    CollectPoints(Split(text, '}'), number)
  }

  /** Every index moved one fragment later. */
  function Shift(s: seq<nat>): (r: seq<nat>)
    ensures |r| == |s|
    ensures forall k :: 0 <= k < |s| ==> r[k] == s[k] + 1
  {
    if |s| == 0 then [] else [s[0] + 1] + Shift(s[1..])
  }

  /** The indices of the fragments that contribute a point, in order. */
  ghost function Sources(frags: seq<string>, number: string -> Option<real>): seq<nat>
    decreases |frags|
  {
    if |frags| == 0 then []
    else
      var rest := Shift(Sources(frags[1..], number));
      match FragmentPoint(frags[0], number)
      case Success(Some(_)) => [0] + rest
      case _ => rest
  }

  predicate StrictlyIncreasing(s: seq<nat>) {
    forall a, b :: 0 <= a < b < |s| ==> s[a] < s[b]
  }

  /** What each fragment contributes, reading a failing fragment as contributing nothing. */
  ghost function Outcomes(frags: seq<string>, number: string -> Option<real>): (outs: seq<Option<Point>>)
    ensures |outs| == |frags|
    ensures forall j :: 0 <= j < |frags| && FragmentPoint(frags[j], number).Success? ==> outs[j] == FragmentPoint(frags[j], number).value
  {
    seq(|frags|, j requires 0 <= j < |frags| =>
      match FragmentPoint(frags[j], number) case Success(o) => o case Failure(_) => None)
  }

  /** `pts` are the present contributions of `outs`, drawn from the indices `src` in order. */
  ghost predicate DrawnFrom(outs: seq<Option<Point>>, pts: seq<Point>, src: seq<nat>) {
    && |src| == |pts|
    && StrictlyIncreasing(src)
    && (forall k :: 0 <= k < |src| ==> src[k] < |outs| && outs[src[k]] == Some(pts[k]))
    && (forall j :: 0 <= j < |outs| && j !in src ==> outs[j] == None)
  }

  lemma ShiftIncreasing(s: seq<nat>)
    requires StrictlyIncreasing(s)
    ensures StrictlyIncreasing(Shift(s))
    ensures StrictlyIncreasing([0] + Shift(s))
  {
    var t := [0] + Shift(s);
    forall a, b | 0 <= a < b < |t|
      ensures t[a] < t[b]
    {
      if a > 0 {
        assert t[a] == s[a - 1] + 1 && t[b] == s[b - 1] + 1;
      }
    }
  }

  lemma ShiftMember(s: seq<nat>, j: nat)
    requires j > 0
    ensures j in Shift(s) <==> j - 1 in s
  {
    if j - 1 in s {
      var k :| 0 <= k < |s| && s[k] == j - 1;
      assert Shift(s)[k] == j;
    }
  }

  /** Shifting the indices by one keeps them pointing at the same points once
      a contribution is put in front. */
  lemma ShiftPicks(o: Option<Point>, outs: seq<Option<Point>>, pts: seq<Point>, src: seq<nat>)
    requires |src| == |pts|
    requires forall k :: 0 <= k < |src| ==> src[k] < |outs| && outs[src[k]] == Some(pts[k])
    ensures forall k :: 0 <= k < |src| ==> Shift(src)[k] < |[o] + outs| && ([o] + outs)[Shift(src)[k]] == Some(pts[k])
  {
    var all := [o] + outs;
    forall k | 0 <= k < |src|
      ensures Shift(src)[k] < |all| && all[Shift(src)[k]] == Some(pts[k])
    {
      assert all[src[k] + 1] == outs[src[k]];
    }
  }

  /** Shifting the indices by one keeps every index it misses, after the first, at no point. */
  lemma ShiftGaps(o: Option<Point>, outs: seq<Option<Point>>, src: seq<nat>)
    requires forall j :: 0 <= j < |outs| && j !in src ==> outs[j] == None
    ensures forall j :: 0 < j < |[o] + outs| && j !in Shift(src) ==> ([o] + outs)[j] == None
  {
    var all := [o] + outs;
    forall j | 0 < j < |all| && j !in Shift(src)
      ensures all[j] == None
    {
      ShiftMember(src, j);
      assert all[j] == outs[j - 1];
    }
  }

  /** A contribution in front that has no point shifts the drawing by one. */
  lemma DrawnShiftNone(outs: seq<Option<Point>>, pts: seq<Point>, src: seq<nat>)
    requires DrawnFrom(outs, pts, src)
    ensures DrawnFrom([None] + outs, pts, Shift(src))
  {
    ShiftIncreasing(src);
    ShiftPicks(None, outs, pts, src);
    ShiftGaps(None, outs, src);
  }

  /** A contribution in front that has a point puts that point first. */
  lemma DrawnShiftSome(p: Point, outs: seq<Option<Point>>, pts: seq<Point>, src: seq<nat>)
    requires DrawnFrom(outs, pts, src)
    ensures DrawnFrom([Some(p)] + outs, [p] + pts, [0] + Shift(src))
  {
    ShiftIncreasing(src);
    ShiftPicks(Some(p), outs, pts, src);
    ShiftGaps(Some(p), outs, src);
    ConsPicks(p, outs, pts, Shift(src));
    ConsGaps(Some(p), outs, Shift(src));
  }

  /** Putting a point in front, drawn from index 0, keeps the later drawings. */
  lemma ConsPicks(p: Point, outs: seq<Option<Point>>, pts: seq<Point>, sh: seq<nat>)
    requires |sh| == |pts|
    requires forall k :: 0 <= k < |sh| ==> sh[k] < |[Some(p)] + outs| && ([Some(p)] + outs)[sh[k]] == Some(pts[k])
    ensures forall k :: 0 <= k < |[0] + sh| ==>
              ([0] + sh)[k] < |[Some(p)] + outs| && ([Some(p)] + outs)[([0] + sh)[k]] == Some(([p] + pts)[k])
  {
    var all := [Some(p)] + outs;
    var src := [0] + sh;
    forall k | 0 <= k < |src|
      ensures src[k] < |all| && all[src[k]] == Some(([p] + pts)[k])
    {
      if k > 0 {
        assert src[k] == sh[k - 1] && ([p] + pts)[k] == pts[k - 1];
      }
    }
  }

  /** Index 0 drawn, every other missed index still holds no point. */
  lemma ConsGaps(o: Option<Point>, outs: seq<Option<Point>>, sh: seq<nat>)
    requires forall j :: 0 < j < |[o] + outs| && j !in sh ==> ([o] + outs)[j] == None
    ensures forall j :: 0 <= j < |[o] + outs| && j !in [0] + sh ==> ([o] + outs)[j] == None
  {
    var all := [o] + outs;
    forall j | 0 <= j < |all| && j !in [0] + sh
      ensures all[j] == None
    {
      assert j != 0 && j !in sh;
    }
  }

  /** A successful scan succeeds on the first fragment and on the rest, and
      puts the first fragment's point, if any, in front of the rest's. */
  lemma CollectPointsHead(frags: seq<string>, number: string -> Option<real>)
    requires |frags| > 0 && CollectPoints(frags, number).Success?
    ensures FragmentPoint(frags[0], number).Success?
    ensures CollectPoints(frags[1..], number).Success?
    ensures var tail := CollectPoints(frags[1..], number).value;
            CollectPoints(frags, number).value ==
              match FragmentPoint(frags[0], number).value case Some(p) => [p] + tail case None => tail
  {
    var head := FragmentPoint(frags[0], number);
    var rest := CollectPoints(frags[1..], number);
    if head.Failure? || rest.Failure? {
      assert false;
    }
  }

  /** The contributions of a fragment list: the first one's, then the rest's. */
  lemma OutcomesCons(frags: seq<string>, number: string -> Option<real>, o: Option<Point>)
    requires |frags| > 0 && FragmentPoint(frags[0], number) == Success(o)
    ensures Outcomes(frags, number) == [o] + Outcomes(frags[1..], number)
  {
    var all, rest := Outcomes(frags, number), Outcomes(frags[1..], number);
    forall j | 0 < j < |frags|
      ensures all[j] == rest[j - 1]
    {
      assert frags[j] == frags[1..][j - 1];
    }
    ConsPointwise(all, o, rest);
  }

  /** A sequence that agrees with `[x] + rest` at every index is `[x] + rest`. */
  lemma ConsPointwise<T>(s: seq<T>, x: T, rest: seq<T>)
    requires |s| == |rest| + 1 && s[0] == x
    requires forall j :: 0 < j < |s| ==> s[j] == rest[j - 1]
    ensures s == [x] + rest
  {
  }

  /** A successful scan draws point k from fragment Sources[k], in increasing
      fragment order; every fragment succeeds, and every other one contributes nothing. */
  lemma CollectPointsSources(frags: seq<string>, number: string -> Option<real>)
    requires CollectPoints(frags, number).Success?
    ensures forall j :: 0 <= j < |frags| ==> FragmentPoint(frags[j], number).Success?
    ensures DrawnFrom(Outcomes(frags, number), CollectPoints(frags, number).value, Sources(frags, number))
  {
    CollectPointsSucceed(frags, number);
    CollectPointsDrawn(frags, number);
  }

  /** A successful scan succeeds on every fragment. */
  lemma {:induction false} CollectPointsSucceed(frags: seq<string>, number: string -> Option<real>)
    requires CollectPoints(frags, number).Success?
    ensures forall j :: 0 <= j < |frags| ==> FragmentPoint(frags[j], number).Success?
    decreases |frags|
  {
    if |frags| > 0 {
      var tf := frags[1..];
      CollectPointsHead(frags, number);
      CollectPointsSucceed(tf, number);
      AllOfCons(frags, (f: string) => FragmentPoint(f, number).Success?);
    }
  }

  /** Whatever holds of the first element and of every element of the rest holds of every element. */
  lemma AllOfCons<T>(s: seq<T>, good: T -> bool)
    requires |s| > 0 && good(s[0])
    requires forall j :: 0 <= j < |s[1..]| ==> good(s[1..][j])
    ensures forall j :: 0 <= j < |s| ==> good(s[j])
  {
    forall j | 0 < j < |s|
      ensures good(s[j])
    {
      assert s[j] == s[1..][j - 1];
    }
  }

  /** A successful scan draws its points from the contributions at Sources, in order. */
  lemma {:induction false} CollectPointsDrawn(frags: seq<string>, number: string -> Option<real>)
    requires CollectPoints(frags, number).Success?
    ensures DrawnFrom(Outcomes(frags, number), CollectPoints(frags, number).value, Sources(frags, number))
    decreases |frags|
  {
    if |frags| > 0 {
      CollectPointsHead(frags, number);
      CollectPointsDrawn(frags[1..], number);
      DrawnStep(frags, number);
    }
  }

  /** The drawing of the rest extends to the whole list once the first
      fragment's contribution is put in front. */
  lemma DrawnStep(frags: seq<string>, number: string -> Option<real>)
    requires |frags| > 0 && CollectPoints(frags, number).Success?
    requires CollectPoints(frags[1..], number).Success?
    requires DrawnFrom(Outcomes(frags[1..], number), CollectPoints(frags[1..], number).value, Sources(frags[1..], number))
    ensures DrawnFrom(Outcomes(frags, number), CollectPoints(frags, number).value, Sources(frags, number))
  {
    var tf := frags[1..];
    CollectPointsHead(frags, number);
    var outs := Outcomes(tf, number);
    var o := FragmentPoint(frags[0], number).value;
    OutcomesCons(frags, number, o);
    if o.Some? {
      DrawnShiftSome(o.value, outs, CollectPoints(tf, number).value, Sources(tf, number));
    } else {
      DrawnShiftNone(outs, CollectPoints(tf, number).value, Sources(tf, number));
    }
  }

  /** Fragment i is the first that fails, and it fails with `e`. */
  ghost predicate FailsFirstAt(frags: seq<string>, number: string -> Option<real>, i: nat, e: ParseError) {
    && i < |frags|
    && FragmentPoint(frags[i], number) == Failure(e)
    && forall j :: 0 <= j < i ==> FragmentPoint(frags[j], number).Success?
  }

  /** A failed scan fails on the first fragment, or on the rest with the same error. */
  lemma CollectFailureHead(frags: seq<string>, number: string -> Option<real>)
    requires CollectPoints(frags, number).Failure?
    ensures |frags| > 0
    ensures FragmentPoint(frags[0], number).Failure? ==> FragmentPoint(frags[0], number) == Failure(CollectPoints(frags, number).error)
    ensures FragmentPoint(frags[0], number).Success? ==> CollectPoints(frags[1..], number) == Failure(CollectPoints(frags, number).error)
  {
  }

  /** A first failure in the rest is a first failure one fragment later in the whole. */
  lemma FailsFirstShift(frags: seq<string>, number: string -> Option<real>, i: nat, e: ParseError)
    requires |frags| > 0 && FragmentPoint(frags[0], number).Success?
    requires FailsFirstAt(frags[1..], number, i, e)
    ensures FailsFirstAt(frags, number, i + 1, e)
  {
    assert forall j :: 0 < j <= i + 1 ==> frags[j] == frags[1..][j - 1];
  }

  /** A failed scan reports the error of the first fragment that fails,
      after every earlier fragment succeeded. */
  lemma {:induction false} CollectPointsFailure(frags: seq<string>, number: string -> Option<real>)
    requires CollectPoints(frags, number).Failure?
    ensures exists i :: FailsFirstAt(frags, number, i, CollectPoints(frags, number).error)
    decreases |frags|
  {
    var e := CollectPoints(frags, number).error;
    CollectFailureHead(frags, number);
    if FragmentPoint(frags[0], number).Success? {
      CollectPointsFailure(frags[1..], number);
      var i :| FailsFirstAt(frags[1..], number, i, e);
      FailsFirstShift(frags, number, i, e);
    } else {
      assert FailsFirstAt(frags, number, 0, e);
    }
  }
}

=== FILE: geometry.dfy ===
/** Spawn points, the bounding extents of a map's spawn points
    (calculate_map_dimensions) and the six per-point clearances that
    process_map derives from them. Coordinates are exact reals. */
module Geometry {

  datatype Point = Point(x: real, y: real, z: real)

  /** The (min, max) pair of one axis. */
  datatype Range = Range(lo: real, hi: real)

  /** The three per-axis ranges, in the order X, Y, Z. */
  datatype Box = Box(x: Range, y: Range, z: Range)

  predicate InRange(v: real, r: Range) {
    r.lo <= v <= r.hi
  }

  predicate Within(p: Point, b: Box) {
    InRange(p.x, b.x) && InRange(p.y, b.y) && InRange(p.z, b.z)
  }

  /** One step of the reduction: `min(lo, v), max(hi, v)`. */
  function Widen(r: Range, v: real): Range {
    Range(if v < r.lo then v else r.lo, if v > r.hi then v else r.hi)
  }

  /** calculate_map_dimensions: the per-axis min and max over the spawn points,
      folded left to right as the Python loop does. */
  function Extents(pts: seq<Point>): (b: Box)
    requires |pts| > 0
    ensures forall i :: 0 <= i < |pts| ==> Within(pts[i], b)
    ensures exists i :: 0 <= i < |pts| && pts[i].x == b.x.lo
    ensures exists i :: 0 <= i < |pts| && pts[i].x == b.x.hi
    ensures exists i :: 0 <= i < |pts| && pts[i].y == b.y.lo
    ensures exists i :: 0 <= i < |pts| && pts[i].y == b.y.hi
    ensures exists i :: 0 <= i < |pts| && pts[i].z == b.z.lo
    ensures exists i :: 0 <= i < |pts| && pts[i].z == b.z.hi
    decreases |pts|
  {
    var p := pts[|pts| - 1];
    if |pts| == 1 then Box(Range(p.x, p.x), Range(p.y, p.y), Range(p.z, p.z))
    else
      var init := pts[..|pts| - 1];
      var b0 := Extents(init);
      assert forall i :: 0 <= i < |init| ==> init[i] == pts[i];
      Box(Widen(b0.x, p.x), Widen(b0.y, p.y), Widen(b0.z, p.z))
  }

  /** The distance from a spawn point to each of the six faces of the extents. */
  datatype Clearance = Clearance(left: real, right: real, forward: real, backward: real, up: real, down: real)

  /** No side of a clearance is negative. */
  predicate NonNegative(c: Clearance) {
    c.left >= 0.0 && c.right >= 0.0 && c.forward >= 0.0 && c.backward >= 0.0 && c.up >= 0.0 && c.down >= 0.0
  }

  /** process_map's move_left .. move_down for one point. */
  function ClearanceOf(p: Point, b: Box): (c: Clearance)
    ensures c.left + c.right == b.x.hi - b.x.lo
    ensures c.backward + c.forward == b.y.hi - b.y.lo
    ensures c.down + c.up == b.z.hi - b.z.lo
    ensures Within(p, b) <==> NonNegative(c)
  {
    Clearance(p.x - b.x.lo, b.x.hi - p.x, b.y.hi - p.y, p.y - b.y.lo, b.z.hi - p.z, p.z - b.z.lo)
  }

  /** Against the map's own extents every spawn point has non-negative clearance
      on all six sides, and each face is touched by some spawn point. */
  lemma ClearancesOfExtents(pts: seq<Point>)
    requires |pts| > 0
    ensures forall i :: 0 <= i < |pts| ==> NonNegative(ClearanceOf(pts[i], Extents(pts)))
    ensures exists i :: 0 <= i < |pts| && ClearanceOf(pts[i], Extents(pts)).left == 0.0
    ensures exists i :: 0 <= i < |pts| && ClearanceOf(pts[i], Extents(pts)).right == 0.0
    ensures exists i :: 0 <= i < |pts| && ClearanceOf(pts[i], Extents(pts)).forward == 0.0
    ensures exists i :: 0 <= i < |pts| && ClearanceOf(pts[i], Extents(pts)).backward == 0.0
    ensures exists i :: 0 <= i < |pts| && ClearanceOf(pts[i], Extents(pts)).up == 0.0
    ensures exists i :: 0 <= i < |pts| && ClearanceOf(pts[i], Extents(pts)).down == 0.0
  {
    var b := Extents(pts);
    XFacesTouched(pts, b);
    YFacesTouched(pts, b);
    ZFacesTouched(pts, b);
  }

  lemma XFacesTouched(pts: seq<Point>, b: Box)
    requires exists i :: 0 <= i < |pts| && pts[i].x == b.x.lo
    requires exists i :: 0 <= i < |pts| && pts[i].x == b.x.hi
    ensures exists i :: 0 <= i < |pts| && ClearanceOf(pts[i], b).left == 0.0
    ensures exists i :: 0 <= i < |pts| && ClearanceOf(pts[i], b).right == 0.0
  {
    var i0 :| 0 <= i0 < |pts| && pts[i0].x == b.x.lo;
    assert ClearanceOf(pts[i0], b).left == 0.0;
    var i1 :| 0 <= i1 < |pts| && pts[i1].x == b.x.hi;
    assert ClearanceOf(pts[i1], b).right == 0.0;
  }

  lemma YFacesTouched(pts: seq<Point>, b: Box)
    requires exists i :: 0 <= i < |pts| && pts[i].y == b.y.lo
    requires exists i :: 0 <= i < |pts| && pts[i].y == b.y.hi
    ensures exists i :: 0 <= i < |pts| && ClearanceOf(pts[i], b).forward == 0.0
    ensures exists i :: 0 <= i < |pts| && ClearanceOf(pts[i], b).backward == 0.0
  {
    var i0 :| 0 <= i0 < |pts| && pts[i0].y == b.y.hi;
    assert ClearanceOf(pts[i0], b).forward == 0.0;
    var i1 :| 0 <= i1 < |pts| && pts[i1].y == b.y.lo;
    assert ClearanceOf(pts[i1], b).backward == 0.0;
  }

  lemma ZFacesTouched(pts: seq<Point>, b: Box)
    requires exists i :: 0 <= i < |pts| && pts[i].z == b.z.lo
    requires exists i :: 0 <= i < |pts| && pts[i].z == b.z.hi
    ensures exists i :: 0 <= i < |pts| && ClearanceOf(pts[i], b).up == 0.0
    ensures exists i :: 0 <= i < |pts| && ClearanceOf(pts[i], b).down == 0.0
  {
    var i0 :| 0 <= i0 < |pts| && pts[i0].z == b.z.hi;
    assert ClearanceOf(pts[i0], b).up == 0.0;
    var i1 :| 0 <= i1 < |pts| && pts[i1].z == b.z.lo;
    assert ClearanceOf(pts[i1], b).down == 0.0;
  }

  /** The extents are the tightest box around the points: any box holding
      every point contains them. */
  lemma ExtentsTightest(pts: seq<Point>, b: Box)
    requires |pts| > 0
    requires forall i :: 0 <= i < |pts| ==> Within(pts[i], b)
    ensures b.x.lo <= Extents(pts).x.lo && Extents(pts).x.hi <= b.x.hi
    ensures b.y.lo <= Extents(pts).y.lo && Extents(pts).y.hi <= b.y.hi
    ensures b.z.lo <= Extents(pts).z.lo && Extents(pts).z.hi <= b.z.hi
  {
    var e := Extents(pts);
    var i0 :| 0 <= i0 < |pts| && pts[i0].x == e.x.lo;
    var i1 :| 0 <= i1 < |pts| && pts[i1].x == e.x.hi;
    var i2 :| 0 <= i2 < |pts| && pts[i2].y == e.y.lo;
    var i3 :| 0 <= i3 < |pts| && pts[i3].y == e.y.hi;
    var i4 :| 0 <= i4 < |pts| && pts[i4].z == e.z.lo;
    var i5 :| 0 <= i5 < |pts| && pts[i5].z == e.z.hi;
    assert Within(pts[i0], b) && Within(pts[i1], b) && Within(pts[i2], b);
    assert Within(pts[i3], b) && Within(pts[i4], b) && Within(pts[i5], b);
  }

  /** Adding a point widens each axis of the extents by that point. */
  lemma ExtentsSnoc(pts: seq<Point>, p: Point)
    requires |pts| > 0
    ensures Extents(pts + [p]) == Box(Widen(Extents(pts).x, p.x), Widen(Extents(pts).y, p.y), Widen(Extents(pts).z, p.z))
  {
    assert (pts + [p])[..|pts|] == pts;
  }

  /** Four points, one at the origin and one along each axis: the extents
      are X [0, 10], Y [0, 5], Z [0, 2]. */
  lemma FourPoints(pts: seq<Point>)
    requires pts == [Point(0.0, 0.0, 0.0), Point(10.0, 0.0, 0.0), Point(0.0, 5.0, 0.0), Point(0.0, 0.0, 2.0)]
    ensures Extents(pts) == Box(Range(0.0, 10.0), Range(0.0, 5.0), Range(0.0, 2.0))
  {
    var a := [pts[0]];
    var b := a + [pts[1]];
    var c := b + [pts[2]];
    assert pts == c + [pts[3]];
    assert Extents(a) == Box(Range(0.0, 0.0), Range(0.0, 0.0), Range(0.0, 0.0));
    ExtentsSnoc(a, pts[1]);
    ExtentsSnoc(b, pts[2]);
    ExtentsSnoc(c, pts[3]);
  }
}

=== FILE: lump.dfy ===
/** The lump directory of a map file: the header constants of vertice.py and
    the reader that decodes one (offset, length) entry, plus the slice read
    that fetches the entity lump's bytes. The file is its byte image. */
module Lump {
  import opened Wrappers

  type byte = x: int | 0 <= x < 0x100

  // The header constants exactly as vertice.py declares them.
  const LumpEntities: int := 0
  const LumpModels: int := 14
  const HeaderLumps: int := 17
  const LumpSize: int := 8
  const HeaderSize: int := 4 + HeaderLumps * LumpSize

  /** Where the directory entry of a lump is read from: the seek target of read_lump_info. */
  function DirectoryPosition(index: int): int {
    HeaderSize + index * LumpSize
  }

  /** The values a C `int` (struct format 'i') can hold. */
  predicate IsInt32(v: int) {
    -0x8000_0000 <= v < 0x8000_0000
  }

  /** struct.unpack of one 'i' field, little-endian two's complement. */
  function DecodeInt32(b: seq<byte>): (v: int)
    requires |b| == 4
    ensures IsInt32(v)
  {
    var u: int := b[0] as int + 0x100 * (b[1] as int + 0x100 * (b[2] as int + 0x100 * b[3] as int));
    if u < 0x8000_0000 then u else u - 0x1_0000_0000
  }

  /** struct.pack of one 'i' field, little-endian two's complement. */
  function EncodeInt32(v: int): (b: seq<byte>)
    requires IsInt32(v)
    ensures |b| == 4
  {
    var u := if v < 0 then v + 0x1_0000_0000 else v;
    var q1 := u / 0x100;
    var q2 := q1 / 0x100;
    [u % 0x100, q1 % 0x100, q2 % 0x100, q2 / 0x100]
  }

  /** Decoding an encoded int32 gives it back. */
  lemma DecodeEncode(v: int)
    requires IsInt32(v)
    ensures DecodeInt32(EncodeInt32(v)) == v
  {
    var u := if v < 0 then v + 0x1_0000_0000 else v;
    var q1 := u / 0x100;
    var q2 := q1 / 0x100;
    assert u == u % 0x100 + 0x100 * q1;
    assert q1 == q1 % 0x100 + 0x100 * q2;
    assert q2 == q2 % 0x100 + 0x100 * (q2 / 0x100);
  }

  /** Encoding a decoded int32 gives back the four bytes: every 4-byte word is some int32. */
  lemma EncodeDecode(b: seq<byte>)
    requires |b| == 4
    ensures EncodeInt32(DecodeInt32(b)) == b
  {
    var q2: int := b[2] as int + 0x100 * b[3] as int;
    var q1: int := b[1] as int + 0x100 * q2;
    var u: int := b[0] as int + 0x100 * q1;
    assert u / 0x100 == q1 && u % 0x100 == b[0];
    assert q1 / 0x100 == q2 && q1 % 0x100 == b[1];
    assert q2 / 0x100 == b[3] && q2 % 0x100 == b[2];
  }

  datatype LumpError =
    | NegativeSeek(position: int)          // file.seek raises on a negative target
    | ShortRead(position: int, got: nat)   // struct.unpack raises on fewer than 8 bytes
    | NegativeSize(size: int)              // a buffered read raises on a size below -1

  /** One directory entry: where a lump starts and how many bytes it has. */
  datatype LumpInfo = LumpInfo(offset: int, length: int)

  /** read_lump_info: seek to the entry, read 8 bytes, unpack two 'i' fields. */
  function ReadLumpInfo(file: seq<byte>, index: int): (r: Result<LumpInfo, LumpError>)
    ensures r.Success? <==> 0 <= DirectoryPosition(index) && DirectoryPosition(index) + LumpSize <= |file|
    ensures r.Success? ==>
              var pos := DirectoryPosition(index);
              && IsInt32(r.value.offset) && IsInt32(r.value.length)
              && file[pos..pos + 4] == EncodeInt32(r.value.offset)
              && file[pos + 4..pos + 8] == EncodeInt32(r.value.length)
    ensures r.Failure? && DirectoryPosition(index) >= 0 ==>
              r.error.ShortRead? && r.error.got < LumpSize && r.error.got == if |file| < DirectoryPosition(index) then 0 else |file| - DirectoryPosition(index)
  {
    var pos := DirectoryPosition(index);
    if pos < 0 then Failure(NegativeSeek(pos))
    else if |file| < pos + LumpSize then Failure(ShortRead(pos, if |file| < pos then 0 else |file| - pos))
    else
      EncodeDecode(file[pos..pos + 4]);
      EncodeDecode(file[pos + 4..pos + 8]);
      Success(LumpInfo(DecodeInt32(file[pos..pos + 4]), DecodeInt32(file[pos + 4..pos + 8])))
  }

  /** A file whose bytes at an entry's position hold the encoding of `info`. */
  function WriteLumpInfo(file: seq<byte>, index: int, info: LumpInfo): (f: seq<byte>)
    requires 0 <= DirectoryPosition(index) && DirectoryPosition(index) + LumpSize <= |file|
    requires IsInt32(info.offset) && IsInt32(info.length)
    ensures |f| == |file|
    ensures forall i :: 0 <= i < |file| && !(DirectoryPosition(index) <= i < DirectoryPosition(index) + LumpSize) ==> f[i] == file[i]
  {
    var pos := DirectoryPosition(index);
    file[..pos] + EncodeInt32(info.offset) + EncodeInt32(info.length) + file[pos + LumpSize..]
  }

  /** Reading back a written entry returns exactly what was written. */
  lemma ReadAfterWrite(file: seq<byte>, index: int, info: LumpInfo)
    requires 0 <= DirectoryPosition(index) && DirectoryPosition(index) + LumpSize <= |file|
    requires IsInt32(info.offset) && IsInt32(info.length)
    ensures ReadLumpInfo(WriteLumpInfo(file, index, info), index) == Success(info)
  {
    var pos := DirectoryPosition(index);
    var f := WriteLumpInfo(file, index, info);
    assert f[pos..pos + 4] == EncodeInt32(info.offset);
    assert f[pos + 4..pos + 8] == EncodeInt32(info.length);
    DecodeEncode(info.offset);
    DecodeEncode(info.length);
  }

  /** Writing one entry leaves every other entry as it was. */
  lemma ReadOtherAfterWrite(file: seq<byte>, index: int, other: int, info: LumpInfo)
    requires 0 <= DirectoryPosition(index) && DirectoryPosition(index) + LumpSize <= |file|
    requires IsInt32(info.offset) && IsInt32(info.length)
    requires other != index
    ensures ReadLumpInfo(WriteLumpInfo(file, index, info), other) == ReadLumpInfo(file, other)
  {
    var f := WriteLumpInfo(file, index, info);
    var pos := DirectoryPosition(other);
    if 0 <= pos && pos + LumpSize <= |file| {
      assert f[pos..pos + 4] == file[pos..pos + 4];
      assert f[pos + 4..pos + 8] == file[pos + 4..pos + 8];
    }
  }

  /** parse_entities' `file.seek(offset); file.read(length)` on a file opened
      in binary mode: a negative offset raises, an offset past the end reads
      nothing, a length of -1 reads to the end of the file, and a length below
      -1 raises. */
  function ReadBytes(file: seq<byte>, offset: int, length: int): (r: Result<seq<byte>, LumpError>)
    ensures r.Success? <==> offset >= 0 && length >= -1
    ensures offset < 0 ==> r == Failure(NegativeSeek(offset))
    ensures offset >= 0 && length < -1 ==> r == Failure(NegativeSize(length))
    ensures r.Success? && offset <= |file| ==> r.value <= file[offset..]
    ensures r.Success? && offset > |file| ==> r.value == []
    ensures r.Success? && length >= 0 ==> |r.value| <= length
    ensures r.Success? && offset <= |file| ==> |r.value| == length || offset + |r.value| == |file|
  {
    if offset < 0 then Failure(NegativeSeek(offset))
    else if length < -1 then Failure(NegativeSize(length))
    else
      var start := if offset < |file| then offset else |file|;
      var stop := if length == -1 || |file| - start < length then |file| else start + length;
      Success(file[start..stop])
  }
}

=== FILE: report.dfy ===
/** process_map and the reader half of generate_pdf: one map file's byte
    image becomes a flat list of report lines (a 12-line header and 16 lines
    per spawn point), and the PDF builder reads that list back by index
    arithmetic. The map counter is threaded explicitly. */
module Report {
  import opened Wrappers
  import opened Text
  import opened Lump
  import opened Geometry
  import opened Entities

  /** The conversions the Python code leaves to its runtime: lossy UTF-8
      decoding (`errors='ignore'`), `float()` and `f"{x}"` on a float. */
  datatype Codec = Codec(decode: seq<byte> -> string, number: string -> Option<real>, show: real -> string)

  /** os.path.basename on POSIX: the text after the last '/'. */
  function Basename(path: string): (name: string)
    ensures '/' !in name
    ensures |name| <= |path|
    decreases |path|
  {
    if |path| == 0 || path[|path| - 1] == '/' then ""
    else Basename(path[..|path| - 1]) + [path[|path| - 1]]
  }

  /** The base name is a suffix of the path, and all of it or preceded by a '/'. */
  lemma {:induction false} BasenameSuffix(path: string)
    ensures var name := Basename(path);
            && name == path[|path| - |name|..]
            && (|name| < |path| ==> path[|path| - |name| - 1] == '/')
    decreases |path|
  {
    if |path| > 0 && path[|path| - 1] != '/' {
      var init := path[..|path| - 1];
      var last := [path[|path| - 1]];
      BasenameSuffix(init);
      var b := Basename(init);
      assert Basename(path) == b + last;
      assert path == init + last;
      assert b + last == path[|path| - |b| - 1..];
      if |b| < |init| {
        assert path[|path| - |b| - 2] == init[|init| - |b| - 1];
      }
    }
  }

  /** The first line of a map's report: `f"Map {map_count} - {basename}"`. */
  function Label(count: nat, path: string): string {
    "Map " + Decimal(count) + " - " + Basename(path)
  }

  /** Distinct counter values give distinct labels, whatever the file names. */
  lemma LabelInjective(a: nat, p: string, b: nat, q: string)
    requires Label(a, p) == Label(b, q)
    ensures a == b
  {
    LabelParts(a, p);
    LabelParts(b, q);
    DigitsPrefixUnique(Decimal(a), " - " + Basename(p), Decimal(b), " - " + Basename(q));
    DecimalInjective(a, b);
  }

  /** After the four-character prefix, a label is the counter's digits and then the separator. */
  lemma LabelParts(count: nat, path: string)
    ensures Label(count, path)[4..] == Decimal(count) + (" - " + Basename(path))
    ensures (" - " + Basename(path))[0] == ' '
  {
    DropPrefix("Map ", Decimal(count), " - ", Basename(path));
  }

  lemma DropPrefix(pre: string, d: string, sep: string, name: string)
    requires |sep| > 0
    ensures (pre + d + sep + name)[|pre|..] == d + (sep + name)
    ensures (sep + name)[0] == sep[0]
  {
  }

  /** Maps numbered differently are labelled differently. */
  lemma LabelsDiffer(a: nat, p: string, b: nat, q: string)
    requires a != b
    ensures Label(a, p) != Label(b, q)
  {
    if Label(a, p) == Label(b, q) {
      LabelInjective(a, p, b, q);
    }
  }

  /** One spawn point with its six clearances. */
  datatype Spawn = Spawn(position: Point, clearance: Clearance)

  /** The structured content of a non-empty map's report. */
  datatype MapReport = MapReport(heading: string, extents: Box, spawns: seq<Spawn>)

  /** The clearance loop of process_map, in discovery order. */
  function Spawns(pts: seq<Point>, b: Box): (s: seq<Spawn>)
    ensures |s| == |pts|
    ensures forall k :: 0 <= k < |pts| ==> s[k].position == pts[k]
    ensures forall k :: 0 <= k < |pts| ==> (Within(pts[k], b) <==> NonNegative(s[k].clearance))
    ensures forall k :: 0 <= k < |pts| ==>
              var c := s[k].clearance;
              && c.left + c.right == b.x.hi - b.x.lo
              && c.backward + c.forward == b.y.hi - b.y.lo
              && c.down + c.up == b.z.hi - b.z.lo
  {
    seq(|pts|, k requires 0 <= k < |pts| => Spawn(pts[k], ClearanceOf(pts[k], b)))
  }

  /** What process_map computes for a non-empty spawn list, before layout. */
  function BuildReport(heading: string, pts: seq<Point>): (rep: MapReport)
    requires |pts| > 0
    ensures rep.heading == heading && |rep.spawns| == |pts|
    ensures rep.extents == Extents(pts)
    ensures forall k :: 0 <= k < |pts| ==> rep.spawns[k].clearance == ClearanceOf(pts[k], rep.extents)
    ensures forall k :: 0 <= k < |pts| ==> rep.spawns[k].position == pts[k] && Within(pts[k], rep.extents)
    ensures forall k :: 0 <= k < |pts| ==> NonNegative(rep.spawns[k].clearance)
    ensures forall k :: 0 <= k < |pts| ==>
              var c := rep.spawns[k].clearance;
              && c.left + c.right == rep.extents.x.hi - rep.extents.x.lo
              && c.backward + c.forward == rep.extents.y.hi - rep.extents.y.lo
              && c.down + c.up == rep.extents.z.hi - rep.extents.z.lo
  {
    ClearancesOfExtents(pts);
    var b := Extents(pts);
    MapReport(heading, b, Spawns(pts, b))
  }

  // ---------------------------------------------------------------------
  // The flat output list (process_map) and its reader (generate_pdf)
  // ---------------------------------------------------------------------

  /** The header takes 12 lines; every spawn point then takes a block of 16
      lines, written as the literal 16 throughout so that block positions stay
      linear arithmetic. */
  const HeaderLength: nat := 12
  /** generate_pdf's starting index: the "Spawn Points:" line, one before the first block. */
  const FirstTableIndex: nat := 11

  /** Line `i` of the 12 header lines: label, dimension captions and the six extents. */
  function HeaderCell(rep: MapReport, show: real -> string, i: nat): string
    requires i < HeaderLength
  {
    match i
    case 0 => rep.heading
    case 1 => "Map Dimensions:"
    case 2 => "X Axis:"
    case 3 => show(rep.extents.x.lo)
    case 4 => show(rep.extents.x.hi)
    case 5 => "Y Axis:"
    case 6 => show(rep.extents.y.lo)
    case 7 => show(rep.extents.y.hi)
    case 8 => "Z Axis:"
    case 9 => show(rep.extents.z.lo)
    case 10 => show(rep.extents.z.hi)
    case _ => "Spawn Points:"
  }

  function HeaderLines(rep: MapReport, show: real -> string): seq<string> {
    seq(HeaderLength, i requires 0 <= i < HeaderLength => HeaderCell(rep, show, i))
  }

  /** Line `j` of the 16 lines of spawn point number `n` (numbered from 1). */
  function SpawnCell(n: nat, s: Spawn, show: real -> string, j: nat): string
    requires j < 16
  {
    match j
    case 0 => "Spawn Point " + Decimal(n)
    case 1 => "Spawn Position"
    case 2 => "X Axis"
    case 3 => show(s.position.x)
    case 4 => "Y Axis"
    case 5 => show(s.position.y)
    case 6 => "Z Axis"
    case 7 => show(s.position.z)
    case 8 => "Space until void:"
    case 9 => show(s.clearance.left)
    case 10 => show(s.clearance.right)
    case 11 => show(s.clearance.forward)
    case 12 => show(s.clearance.backward)
    case 13 => show(s.clearance.up)
    case 14 => show(s.clearance.down)
    case _ => ""
  }

  function SpawnLines(n: nat, s: Spawn, show: real -> string): seq<string> {
    seq(16, j requires 0 <= j < 16 => SpawnCell(n, s, show, j))
  }

  /** The blocks of `spawns`, numbered from `first`, one after another. */
  function BodyLines(spawns: seq<Spawn>, first: nat, show: real -> string): (lines: seq<string>)
    ensures |lines| == 16 * |spawns|
    decreases |spawns|
  {
    if |spawns| == 0 then []
    else SpawnLines(first, spawns[0], show) + BodyLines(spawns[1..], first + 1, show)
  }

  /** Block k of the body holds spawn point k's lines, numbered first + k. */
  lemma {:induction false} BodyBlock(spawns: seq<Spawn>, first: nat, show: real -> string, k: nat)
    requires k < |spawns|
    ensures 16 * k + 16 <= |BodyLines(spawns, first, show)|
    ensures BodyLines(spawns, first, show)[16 * k..16 * k + 16] == SpawnLines(first + k, spawns[k], show)
    decreases k
  {
    var head := SpawnLines(first, spawns[0], show);
    var rest := BodyLines(spawns[1..], first + 1, show);
    assert BodyLines(spawns, first, show) == head + rest;
    if k == 0 {
      assert (head + rest)[0..16] == head;
    } else {
      BodyBlock(spawns[1..], first + 1, show, k - 1);
      assert spawns[1..][k - 1] == spawns[k];
      BlockAfter(head, rest, 16 * (k - 1));
      BlockStep(0, k);
    }
  }

  /** The block at i in the rest of the body is the block at 16 + i in the whole body. */
  lemma BlockAfter(head: seq<string>, rest: seq<string>, i: nat)
    requires |head| == 16 && i + 16 <= |rest|
    ensures (head + rest)[16 + i..16 + i + 16] == rest[i..i + 16]
  {
    SliceOfAppend(head, rest, i, i + 16);
  }

  /** A slice of the second part of a concatenation, shifted by the first part's length. */
  lemma SliceOfAppend<T>(a: seq<T>, b: seq<T>, i: nat, j: nat)
    requires i <= j <= |b|
    ensures (a + b)[|a| + i..|a| + j] == b[i..j]
  {
  }

  /** process_map's output list for a map with spawn points. */
  function Layout(rep: MapReport, show: real -> string): (data: seq<string>)
    ensures |data| == HeaderLength + 16 * |rep.spawns|
    ensures data[0] == rep.heading
    ensures data[3] == show(rep.extents.x.lo) && data[4] == show(rep.extents.x.hi)
    ensures data[6] == show(rep.extents.y.lo) && data[7] == show(rep.extents.y.hi)
    ensures data[9] == show(rep.extents.z.lo) && data[10] == show(rep.extents.z.hi)
  {
    HeaderLines(rep, show) + BodyLines(rep.spawns, 1, show)
  }

  /** Spawn point k's block sits right after the header and the k blocks before it. */
  lemma LayoutBlock(rep: MapReport, show: real -> string, k: nat)
    requires k < |rep.spawns|
    ensures var idx := FirstTableIndex + 16 * k;
            && idx + 16 < |Layout(rep, show)|
            && Layout(rep, show)[idx + 1..idx + 1 + 16] == SpawnLines(k + 1, rep.spawns[k], show)
  {
    var head := HeaderLines(rep, show);
    var body := BodyLines(rep.spawns, 1, show);
    HeaderLinesCount(rep, show);
    BodyBlock(rep.spawns, 1, show, k);
    HeaderThenBlock(head, body, k, SpawnLines(k + 1, rep.spawns[k], show));
  }

  /** The header always has its 12 lines. */
  lemma HeaderLinesCount(rep: MapReport, show: real -> string)
    ensures |HeaderLines(rep, show)| == HeaderLength
  {
  }

  /** Block k of a body placed after a 12-line header starts one past 11 + 16k. */
  lemma HeaderThenBlock(head: seq<string>, body: seq<string>, k: nat, block: seq<string>)
    requires |head| == HeaderLength && 16 * k + 16 <= |body|
    requires body[16 * k..16 * k + 16] == block
    ensures FirstTableIndex + 16 * k + 16 < |head + body|
    ensures (head + body)[FirstTableIndex + 16 * k + 1..FirstTableIndex + 16 * k + 1 + 16] == block
  {
    SliceOfAppend(head, body, 16 * k, 16 * k + 16);
  }

  /** The cells of a 16-line block found at `idx + 1`. */
  lemma BlockCells(data: seq<string>, idx: nat, block: seq<string>)
    requires idx + 1 + 16 <= |data| && data[idx + 1..idx + 1 + 16] == block
    ensures forall j :: 0 <= j < 16 ==> data[idx + 1 + j] == block[j]
  {
  }

  /** The positions generate_pdf reads: with idx = 11 + 16k, point k's
      coordinates sit at idx+4, idx+6, idx+8 and its clearances, in the order
      left, right, forward, backward, up, down, at idx+10 .. idx+15. */
  lemma LayoutPositions(rep: MapReport, show: real -> string, k: nat)
    requires k < |rep.spawns|
    ensures var data := Layout(rep, show);
            var idx := FirstTableIndex + 16 * k;
            var s := rep.spawns[k];
            && idx + 15 < |data|
            && data[idx + 1] == "Spawn Point " + Decimal(k + 1)
            && data[idx + 4] == show(s.position.x)
            && data[idx + 6] == show(s.position.y)
            && data[idx + 8] == show(s.position.z)
            && data[idx + 9] == "Space until void:"
            && data[idx + 10] == show(s.clearance.left)
            && data[idx + 11] == show(s.clearance.right)
            && data[idx + 12] == show(s.clearance.forward)
            && data[idx + 13] == show(s.clearance.backward)
            && data[idx + 14] == show(s.clearance.up)
            && data[idx + 15] == show(s.clearance.down)
  {
    var data := Layout(rep, show);
    var idx := FirstTableIndex + 16 * k;
    var block := SpawnLines(k + 1, rep.spawns[k], show);
    LayoutBlock(rep, show, k);
    BlockCells(data, idx, block);
    assert data[idx + 1] == block[0] && data[idx + 9] == block[8];
    assert data[idx + 4] == block[3] && data[idx + 6] == block[5] && data[idx + 8] == block[7];
    assert data[idx + 10] == block[9] && data[idx + 11] == block[10] && data[idx + 12] == block[11];
    assert data[idx + 13] == block[12] && data[idx + 14] == block[13] && data[idx + 15] == block[14];
  }

  datatype DimensionRow = DimensionRow(lo: string, hi: string)

  /** The eleven cells of one spawn-point table in the PDF. */
  datatype SpawnTable = SpawnTable(
    title: string, x: string, y: string, z: string, caption: string,
    left: string, right: string, forward: string, backward: string, up: string, down: string)

  /** What generate_pdf puts on the page for one map. */
  datatype MapView = MapView(title: string, x: DimensionRow, y: DimensionRow, z: DimensionRow, tables: seq<SpawnTable>)

  /** generate_pdf indexing past the end of a map's list (IndexError). */
  datatype ReadError = MissingEntry(length: nat)

  /** The table generate_pdf builds at loop position `idx`. */
  function TableAt(data: seq<string>, idx: nat): SpawnTable
    requires idx + 15 < |data|
  {
    SpawnTable(data[idx + 1], data[idx + 4], data[idx + 6], data[idx + 8], data[idx + 9],
               data[idx + 10], data[idx + 11], data[idx + 12], data[idx + 13], data[idx + 14], data[idx + 15])
  }

  /** The `while idx + 15 < len(data)` loop from `idx`, stepping by 16. */
  function SpawnTables(data: seq<string>, idx: nat): (tables: seq<SpawnTable>)
    decreases |data| - idx
  {
    if idx + 15 < |data| then [TableAt(data, idx)] + SpawnTables(data, idx + 16)
    else []
  }

  /** The loop visits exactly the positions idx + 16k whose last cell exists,
      in order, and no others. */
  lemma {:induction false} SpawnTablesVisit(data: seq<string>, idx: nat)
    ensures var tables := SpawnTables(data, idx);
            && idx + 16 * |tables| + 15 >= |data|
            && forall k :: 0 <= k < |tables| ==>
                 idx + 16 * k + 15 < |data| && tables[k] == TableAt(data, idx + 16 * k)
    decreases |data| - idx
  {
    var tables := SpawnTables(data, idx);
    if idx + 15 < |data| {
      var rest := SpawnTables(data, idx + 16);
      SpawnTablesVisit(data, idx + 16);
      assert tables == [TableAt(data, idx)] + rest;
      forall k | 0 < k < |tables|
        ensures idx + 16 * k + 15 < |data| && tables[k] == TableAt(data, idx + 16 * k)
      {
        BlockStep(idx, k);
        assert tables[k] == rest[k - 1];
      }
      BlockStep(idx, |tables|);
    }
  }

  /** The loop over a list of the laid-out length for n points runs exactly n times. */
  lemma BlockCount(t: nat, n: nat)
    requires FirstTableIndex + 16 * t + 15 >= HeaderLength + 16 * n
    requires t > 0 ==> FirstTableIndex + 16 * (t - 1) + 15 < HeaderLength + 16 * n
    ensures t == n
  {
  }

  /** The block after block k - 1 from `idx + 16` is block k from `idx`. */
  lemma BlockStep(idx: nat, k: nat)
    requires k > 0
    ensures idx + 16 + 16 * (k - 1) == idx + 16 * k
  {
  }

  /** One entry of report_data as generate_pdf treats it: `None` and lists of
      at most one element are skipped; a shorter list than the dimension table
      needs raises. */
  function ReadMapOutput(entry: Option<seq<string>>): (r: Result<Option<MapView>, ReadError>)
    ensures r == Success(None) <==> entry.None? || |entry.value| <= 1
    ensures r.Failure? <==> entry.Some? && 1 < |entry.value| <= 10
    ensures r.Success? && r.value.Some? ==> r.value.value.title == entry.value[0]
  {
    match entry
    case None => Success(None)
    case Some(data) =>
      if |data| <= 1 then Success(None)
      else if |data| <= 10 then Failure(MissingEntry(|data|))
      else Success(Some(MapView(data[0], DimensionRow(data[3], data[4]), DimensionRow(data[6], data[7]),
                                DimensionRow(data[9], data[10]), SpawnTables(data, FirstTableIndex))))
  }

  /** The page content for a run: one view per processed map, skipped entries dropped. */
  function ReadReports(reports: seq<Option<seq<string>>>): (r: Result<seq<MapView>, ReadError>)
    ensures r.Success? ==> |r.value| <= |reports|
    ensures r.Success? <==> forall i :: 0 <= i < |reports| ==> ReadMapOutput(reports[i]).Success?
    decreases |reports|
  {
    if |reports| == 0 then Success([])
    else
      match ReadMapOutput(reports[0])
      case Failure(e) => Failure(e)
      case Success(v) =>
        match ReadReports(reports[1..])
        case Failure(e) =>
          assert forall i :: 1 <= i < |reports| ==> reports[i] == reports[1..][i - 1];
          Failure(e)
        case Success(vs) =>
          assert forall i :: 1 <= i < |reports| ==> reports[i] == reports[1..][i - 1];
          Success(match v case Some(view) => [view] + vs case None => vs)
  }

  /** Entry i is the first whose reading fails, and it fails with `e`. */
  predicate ReadFailsFirstAt(reports: seq<Option<seq<string>>>, i: nat, e: ReadError) {
    && i < |reports|
    && ReadMapOutput(reports[i]) == Failure(e)
    && forall j :: 0 <= j < i ==> ReadMapOutput(reports[j]).Success?
  }

  /** generate_pdf walks report_data in order, so a failed read reports the
      error of the first entry that fails, after every earlier one was read. */
  lemma {:induction false} ReadReportsFailure(reports: seq<Option<seq<string>>>)
    requires ReadReports(reports).Failure?
    ensures exists i: nat :: ReadFailsFirstAt(reports, i, ReadReports(reports).error)
    decreases |reports|
  {
    var e := ReadReports(reports).error;
    if ReadMapOutput(reports[0]).Success? {
      var rest := reports[1..];
      assert ReadReports(rest) == Failure(e);
      ReadReportsFailure(rest);
      var i: nat :| ReadFailsFirstAt(rest, i, e);
      assert forall j :: 0 < j <= i + 1 ==> reports[j] == rest[j - 1];
      assert reports[i + 1] == rest[i];
      assert ReadFailsFirstAt(reports, i + 1, e);
    } else {
      assert ReadFailsFirstAt(reports, 0, e);
    }
  }

  /** An entry that reads as a page. */
  predicate Shown(entry: Option<seq<string>>) {
    ReadMapOutput(entry).Success? && ReadMapOutput(entry).value.Some?
  }

  /** When every entry reads as a page, the pages are those entries' pages, in order. */
  lemma {:induction false} ReadReportsAllShown(reports: seq<Option<seq<string>>>)
    requires forall i :: 0 <= i < |reports| ==> Shown(reports[i])
    ensures ReadReports(reports).Success?
    ensures |ReadReports(reports).value| == |reports|
    ensures forall i :: 0 <= i < |reports| ==> ReadMapOutput(reports[i]).value == Some(ReadReports(reports).value[i])
    decreases |reports|
  {
    if |reports| > 0 {
      var rest := reports[1..];
      assert forall i :: 0 <= i < |rest| ==> rest[i] == reports[i + 1];
      ReadReportsAllShown(rest);
      assert Shown(reports[0]);
      var v := ReadMapOutput(reports[0]).value.value;
      var vs := ReadReports(rest).value;
      assert ReadReports(reports) == Success([v] + vs);
      forall i | 0 < i < |reports|
        ensures ReadMapOutput(reports[i]).value == Some(([v] + vs)[i])
      {
        assert reports[i] == rest[i - 1];
      }
    }
  }

  /** The table a spawn's block is meant to produce. */
  function ShowSpawn(n: nat, s: Spawn, show: real -> string): SpawnTable {
    SpawnTable("Spawn Point " + Decimal(n), show(s.position.x), show(s.position.y), show(s.position.z),
               "Space until void:",
               show(s.clearance.left), show(s.clearance.right), show(s.clearance.forward),
               show(s.clearance.backward), show(s.clearance.up), show(s.clearance.down))
  }

  /** The page a report is meant to produce, built straight from the structured report. */
  function ShowReport(rep: MapReport, show: real -> string): MapView {
    MapView(rep.heading,
            DimensionRow(show(rep.extents.x.lo), show(rep.extents.x.hi)),
            DimensionRow(show(rep.extents.y.lo), show(rep.extents.y.hi)),
            DimensionRow(show(rep.extents.z.lo), show(rep.extents.z.hi)),
            ShowSpawns(rep.spawns, 1, show))
  }

  /** The tables of `spawns`, numbered from `first`. */
  function ShowSpawns(spawns: seq<Spawn>, first: nat, show: real -> string): (tables: seq<SpawnTable>)
    ensures |tables| == |spawns|
    ensures forall k :: 0 <= k < |spawns| ==> tables[k] == ShowSpawn(first + k, spawns[k], show)
    decreases |spawns|
  {
    if |spawns| == 0 then [] else [ShowSpawn(first, spawns[0], show)] + ShowSpawns(spawns[1..], first + 1, show)
  }

  /** Producer and consumer agree: reading back the list process_map lays out
      visits every spawn point exactly once, in order, and recovers each of
      its cells. */
  lemma LayoutReadBack(rep: MapReport, show: real -> string)
    ensures ReadMapOutput(Some(Layout(rep, show))) == Success(Some(ShowReport(rep, show)))
  {
    var data := Layout(rep, show);
    LayoutTablesReadBack(rep, show);
    assert |data| > 10;
  }

  /** The table loop over a laid-out list yields one table per spawn point, in order. */
  lemma LayoutTablesReadBack(rep: MapReport, show: real -> string)
    ensures SpawnTables(Layout(rep, show), FirstTableIndex) == ShowReport(rep, show).tables
  {
    var data := Layout(rep, show);
    forall k | 0 <= k < |rep.spawns|
      ensures FirstTableIndex + 16 * k + 15 < |data|
      ensures TableAt(data, FirstTableIndex + 16 * k) == ShowSpawn(k + 1, rep.spawns[k], show)
    {
      LayoutTableAt(rep, show, k);
    }
    TablesOfBlocks(data, rep.spawns, show);
  }

  /** The table read at point k's loop position is point k's table. */
  lemma LayoutTableAt(rep: MapReport, show: real -> string, k: nat)
    requires k < |rep.spawns|
    ensures FirstTableIndex + 16 * k + 15 < |Layout(rep, show)|
    ensures TableAt(Layout(rep, show), FirstTableIndex + 16 * k) == ShowSpawn(k + 1, rep.spawns[k], show)
  {
    LayoutPositions(rep, show, k);
  }

  /** A list of the laid-out length whose every block reads as the matching
      spawn point's table is read as exactly those tables. */
  lemma TablesOfBlocks(data: seq<string>, spawns: seq<Spawn>, show: real -> string)
    requires |data| == HeaderLength + 16 * |spawns|
    requires forall k :: 0 <= k < |spawns| ==>
               FirstTableIndex + 16 * k + 15 < |data|
               && TableAt(data, FirstTableIndex + 16 * k) == ShowSpawn(k + 1, spawns[k], show)
    ensures SpawnTables(data, FirstTableIndex) == ShowSpawns(spawns, 1, show)
  {
    var tables := SpawnTables(data, FirstTableIndex);
    var want := ShowSpawns(spawns, 1, show);
    assert |tables| == |want| by { SpawnTablesCount(data, |spawns|); }
    forall k | 0 <= k < |want|
      ensures tables[k] == want[k]
    {
      SpawnTableAt(data, FirstTableIndex, k);
    }
  }

  /** Table k of the loop from `idx` is the one read at idx + 16k. */
  lemma SpawnTableAt(data: seq<string>, idx: nat, k: nat)
    requires k < |SpawnTables(data, idx)|
    ensures idx + 16 * k + 15 < |data|
    ensures SpawnTables(data, idx)[k] == TableAt(data, idx + 16 * k)
  {
    SpawnTablesVisit(data, idx);
  }

  /** On a list of the laid-out length for n points the loop runs exactly n times. */
  lemma SpawnTablesCount(data: seq<string>, n: nat)
    requires |data| == HeaderLength + 16 * n
    ensures |SpawnTables(data, FirstTableIndex)| == n
  {
    var t := |SpawnTables(data, FirstTableIndex)|;
    SpawnTablesVisit(data, FirstTableIndex);
    if t > 0 {
      assert FirstTableIndex + 16 * (t - 1) + 15 < |data|;
    }
    BlockCount(t, n);
  }

  // ---------------------------------------------------------------------
  // process_map with the counter threaded through
  // ---------------------------------------------------------------------

  datatype MapError =
    | LumpFailure(lump: LumpError)       // from read_lump_info or the entity seek
    | EntityFailure(parse: ParseError)   // from parse_entities

  /** The spawn points of a map file: the directory entry of the entity lump,
      its bytes, decoded, then scanned. */
  function SpawnPointsOf(file: seq<byte>, codec: Codec): (r: Result<seq<Point>, MapError>)
    ensures |file| < HeaderSize + LumpSize ==> r.Failure? && r.error.LumpFailure?
    ensures ReadLumpInfo(file, LumpEntities).Failure? ==> r == Failure(LumpFailure(ReadLumpInfo(file, LumpEntities).error))
  {
    match ReadLumpInfo(file, LumpEntities)
    case Failure(e) => Failure(LumpFailure(e))
    case Success(info) =>
      match ReadBytes(file, info.offset, info.length)
      case Failure(e) => Failure(LumpFailure(e))
      case Success(bytes) =>
        match ParseEntities(codec.decode(bytes), codec.number)
        case Failure(e) => Failure(EntityFailure(e))
        case Success(pts) => Success(pts)
  }

  /** The counter after a call and what the call returned: `None` when the map
      has no spawn points, the output list otherwise, or the exception raised. */
  datatype Processed = Processed(count: nat, output: Result<Option<seq<string>>, MapError>)

  /** process_map. The counter moves before anything can fail, so it counts
      every call, including calls that skip the map or raise. */
  function ProcessMap(count: nat, path: string, file: seq<byte>, codec: Codec): (r: Processed)
    ensures r.count == count + 1
    ensures r.output.Success? <==> SpawnPointsOf(file, codec).Success?
    ensures r.output == Success(None) <==> SpawnPointsOf(file, codec) == Success([])
    ensures r.output.Failure? ==> r.output.error == SpawnPointsOf(file, codec).error
    ensures r.output.Success? && r.output.value.Some? ==>
              var pts := SpawnPointsOf(file, codec).value;
              var data := r.output.value.value;
              && |pts| > 0
              && |data| == HeaderLength + 16 * |pts|
              && data[0] == Label(count + 1, path)
  {
    var count' := count + 1;
    match SpawnPointsOf(file, codec)
    case Failure(e) => Processed(count', Failure(e))
    case Success(pts) =>
      if |pts| == 0 then Processed(count', Success(None))
      else
        var rep := BuildReport(Label(count', path), pts);
        Processed(count', Success(Some(Layout(rep, codec.show))))
  }

  /** What the PDF shows for a processed map is the structured report built
      from the map's spawn points: extents, and each point with its clearances. */
  lemma ProcessMapReadBack(count: nat, path: string, file: seq<byte>, codec: Codec)
    requires ProcessMap(count, path, file, codec).output.Success?
    ensures var pts := SpawnPointsOf(file, codec).value;
            var out := ProcessMap(count, path, file, codec).output.value;
            && (out.None? <==> |pts| == 0)
            && (out.Some? ==>
                  ReadMapOutput(out) == Success(Some(ShowReport(BuildReport(Label(count + 1, path), pts), codec.show))))
  {
    var pts := SpawnPointsOf(file, codec).value;
    if |pts| > 0 {
      LayoutReadBack(BuildReport(Label(count + 1, path), pts), codec.show);
    }
  }
}

=== FILE: run.dfy ===
/** main's loop over map files with the map counter threaded through:
    each call to process_map sees the counter the previous call left. */
module Run {
  import opened Wrappers
  import opened Lump
  import opened Report

  /** One map file of a run: its path and its byte image. */
  datatype MapFile = MapFile(path: string, bytes: seq<byte>)

  /** The counter after a run and the collected outputs, or the first exception. */
  datatype Run = Run(count: nat, outputs: Result<seq<Option<seq<string>>>, MapError>)

  /** A per-file step that advances the counter by one, as process_map does. */
  ghost predicate CountsOnce(step: (nat, MapFile) -> Processed) {
    forall c: nat, f: MapFile :: step(c, f).count == c + 1
  }

  /** main's loop over map files: each step sees the counter left by the
      previous one; nothing catches an exception, so the first one ends the run. */
  function RunMaps(count: nat, files: seq<MapFile>, step: (nat, MapFile) -> Processed): (r: Run)
    requires CountsOnce(step)
    ensures r.outputs.Success? ==> r.count == count + |files| && |r.outputs.value| == |files|
    ensures r.outputs.Failure? ==> count < r.count <= count + |files|
    decreases |files|
  {
    if |files| == 0 then Run(count, Success([]))
    else
      var first := step(count, files[0]);
      match first.output
      case Failure(e) => Run(first.count, Failure(e))
      case Success(out) =>
        var rest := RunMaps(first.count, files[1..], step);
        match rest.outputs
        case Failure(e) => Run(rest.count, Failure(e))
        case Success(outs) => Run(rest.count, Success([out] + outs))
  }

  /** Output i of a successful run is what the step returns for file i with
      the counter at count + i. */
  lemma {:induction false} RunMapsOutputs(count: nat, files: seq<MapFile>, step: (nat, MapFile) -> Processed, i: nat)
    requires CountsOnce(step)
    requires RunMaps(count, files, step).outputs.Success?
    requires i < |files|
    ensures step(count + i, files[i]).output == Success(RunMaps(count, files, step).outputs.value[i])
    decreases i
  {
    var first := step(count, files[0]);
    var rest := RunMaps(first.count, files[1..], step);
    var outs := [first.output.value] + rest.outputs.value;
    assert RunMaps(count, files, step) == Run(rest.count, Success(outs));
    if i > 0 {
      RunMapsOutputs(first.count, files[1..], step, i - 1);
      assert files[i] == files[1..][i - 1];
      assert outs[i] == rest.outputs.value[i - 1];
    }
  }

  /** File i is the first whose step fails with e: every earlier step succeeds. */
  ghost predicate RunFailsFirstAt(count: nat, files: seq<MapFile>, step: (nat, MapFile) -> Processed, i: nat, e: MapError) {
    i < |files| && step(count + i, files[i]).output == Failure(e)
    && forall j :: 0 <= j < i ==> step(count + j, files[j]).output.Success?
  }

  /** A first failure one file further on, seen from the file before it. */
  lemma RunFailsFirstShift(count: nat, files: seq<MapFile>, step: (nat, MapFile) -> Processed, i: nat, e: MapError)
    requires |files| > 0 && step(count, files[0]).output.Success?
    requires RunFailsFirstAt(count + 1, files[1..], step, i, e)
    ensures RunFailsFirstAt(count, files, step, i + 1, e)
  {
    assert files[i + 1] == files[1..][i];
    forall j | 0 <= j < i + 1
      ensures step(count + j, files[j]).output.Success?
    {
      if j > 0 {
        assert files[j] == files[1..][j - 1];
      }
    }
  }

  /** A failed run stops at the first file whose step fails: the run carries
      that step's error, every earlier file was processed, and the counter
      stands at that file's number. */
  lemma {:induction false} RunMapsFailure(count: nat, files: seq<MapFile>, step: (nat, MapFile) -> Processed)
    requires CountsOnce(step)
    requires RunMaps(count, files, step).outputs.Failure?
    ensures exists i: nat :: RunFailsFirstAt(count, files, step, i, RunMaps(count, files, step).outputs.error)
                             && RunMaps(count, files, step).count == count + i + 1
    decreases |files|
  {
    var r := RunMaps(count, files, step);
    var first := step(count, files[0]);
    assert first.count == count + 1;
    if first.output.Success? {
      var rest := RunMaps(first.count, files[1..], step);
      assert r == Run(rest.count, Failure(rest.outputs.error));
      RunMapsFailure(first.count, files[1..], step);
      var i: nat :| RunFailsFirstAt(count + 1, files[1..], step, i, r.outputs.error) && rest.count == count + 1 + i + 1;
      RunFailsFirstShift(count, files, step, i, r.outputs.error);
    } else {
      assert RunFailsFirstAt(count, files, step, 0, r.outputs.error);
    }
  }

  /** A step whose reports are labelled with the counter value it advanced to. */
  ghost predicate LabelsWithCounter(step: (nat, MapFile) -> Processed) {
    forall c: nat, f: MapFile :: step(c, f).output.Success? && step(c, f).output.value.Some? ==>
      |step(c, f).output.value.value| > 0 && step(c, f).output.value.value[0] == Label(c + 1, f.path)
  }

  /** process_map as a step of main's loop. */
  function MapStep(codec: Codec): (step: (nat, MapFile) -> Processed)
    ensures CountsOnce(step)
    ensures LabelsWithCounter(step)
  {
    (c: nat, f: MapFile) => ProcessMap(c, f.path, f.bytes, codec)
  }

  /** Map i of a successful run is processed with the counter at count + i,
      so its report is labelled with counter value count + i + 1. */
  lemma RunLabels(count: nat, files: seq<MapFile>, step: (nat, MapFile) -> Processed)
    requires CountsOnce(step) && LabelsWithCounter(step)
    requires RunMaps(count, files, step).outputs.Success?
    ensures LabelledFrom(RunMaps(count, files, step).outputs.value, count, files)
  {
    var outs := RunMaps(count, files, step).outputs.value;
    forall i | 0 <= i < |outs| && outs[i].Some?
      ensures |outs[i].value| > 0 && outs[i].value[0] == Label(count + i + 1, files[i].path)
    {
      RunMapsOutputs(count, files, step, i);
    }
  }

  /** Output i, when present, is labelled with counter value count + i + 1 and the name of file i. */
  predicate LabelledFrom(outs: seq<Option<seq<string>>>, count: nat, files: seq<MapFile>) {
    && |outs| == |files|
    && forall i :: 0 <= i < |outs| && outs[i].Some? ==>
         |outs[i].value| > 0 && outs[i].value[0] == Label(count + i + 1, files[i].path)
  }
}

=== FILE: text.dfy ===
/** The string primitives the entity scanner and the report layout rely on:
    Python's `str.split` with a one-character separator, the `in` substring
    test, and decimal rendering of a counter. */
module Text {

  /** Python's `s.split(sep)` for a one-character separator: the pieces
      between consecutive separators, including empty ones at either end. */
  function Split(s: string, sep: char): (parts: seq<string>)
    ensures |parts| == multiset(s)[sep] + 1
    ensures forall i :: 0 <= i < |parts| ==> sep !in parts[i]
    decreases |s|
  {
    if |s| == 0 then [""]
    else
      var rest := Split(s[1..], sep);
      assert s == [s[0]] + s[1..];
      if s[0] == sep then [""] + rest
      else [[s[0]] + rest[0]] + rest[1..]
  }

  /** Python's `sep.join(parts)`. */
  function Join(parts: seq<string>, sep: char): string
  {
    if |parts| == 0 then ""
    else if |parts| == 1 then parts[0]
    else parts[0] + [sep] + Join(parts[1..], sep)
  }

  /** Gluing the pieces back together with the separator gives the original text. */
  lemma {:induction false} JoinSplit(s: string, sep: char)
    ensures Join(Split(s, sep), sep) == s
    decreases |s|
  {
    if |s| > 0 {
      var t := s[1..];
      var rest := Split(t, sep);
      JoinSplit(t, sep);
      SplitCons(s, sep);
      if s[0] == sep {
        JoinEmptyFirst(rest, sep);
      } else {
        JoinPrepend(s[0], rest, sep);
      }
    }
  }

  /** Split of a non-empty text in terms of the split of its tail. */
  lemma SplitCons(s: string, sep: char)
    requires |s| > 0
    ensures var rest := Split(s[1..], sep);
            Split(s, sep) == if s[0] == sep then [""] + rest else [[s[0]] + rest[0]] + rest[1..]
    ensures s == [s[0]] + s[1..]
  {
  }

  /** Joining with an empty first piece starts with the separator. */
  lemma JoinEmptyFirst(parts: seq<string>, sep: char)
    requires |parts| > 0
    ensures Join([""] + parts, sep) == [sep] + Join(parts, sep)
  {
    assert ([""] + parts)[1..] == parts;
  }

  /** Joining after growing the first piece at the front grows the result at the front. */
  lemma JoinPrepend(c: char, parts: seq<string>, sep: char)
    requires |parts| > 0
    ensures Join([[c] + parts[0]] + parts[1..], sep) == [c] + Join(parts, sep)
  {
    var q := [[c] + parts[0]] + parts[1..];
    assert q[1..] == parts[1..];
    if |parts| > 1 {
      assert [c] + parts[0] + [sep] + Join(parts[1..], sep) == [c] + (parts[0] + [sep] + Join(parts[1..], sep));
    }
  }

  /** Splitting around one separator splits the two sides independently. */
  lemma {:induction false} SplitAround(x: string, y: string, sep: char)
    ensures Split(x + [sep] + y, sep) == Split(x, sep) + Split(y, sep)
    decreases |x|
  {
    var s := x + [sep] + y;
    if |x| == 0 {
      assert s[1..] == y;
    } else {
      assert s[1..] == x[1..] + [sep] + y;
      SplitAround(x[1..], y, sep);
    }
  }

  /** Text without the separator is a single piece. */
  lemma {:induction false} SplitWithout(s: string, sep: char)
    requires sep !in s
    ensures Split(s, sep) == [s]
    decreases |s|
  {
    if |s| > 0 {
      SplitWithout(s[1..], sep);
      assert s == [s[0]] + s[1..];
    }
  }

  /** Split is the inverse of Join on separator-free pieces: the pieces of a
      text are the unique separator-free decomposition of it. */
  lemma {:induction false} SplitJoin(parts: seq<string>, sep: char)
    requires |parts| > 0
    requires forall i :: 0 <= i < |parts| ==> sep !in parts[i]
    ensures Split(Join(parts, sep), sep) == parts
    decreases |parts|
  {
    if |parts| == 1 {
      SplitWithout(parts[0], sep);
    } else {
      SplitWithout(parts[0], sep);
      SplitJoin(parts[1..], sep);
      SplitAround(parts[0], Join(parts[1..], sep), sep);
      assert parts == [parts[0]] + parts[1..];
    }
  }

  /** A character that is neither the separator nor in any piece is not in the joined text. */
  lemma {:induction false} JoinAvoids(parts: seq<string>, sep: char, c: char)
    requires c != sep
    requires forall i :: 0 <= i < |parts| ==> c !in parts[i]
    ensures c !in Join(parts, sep)
    decreases |parts|
  {
    if |parts| > 1 {
      JoinAvoids(parts[1..], sep, c);
    }
  }

  /** Four pieces free of the separator, joined by it, split back into those pieces. */
  lemma SplitFour(a: string, b: string, c: string, d: string, sep: char)
    requires sep !in a && sep !in b && sep !in c && sep !in d
    ensures Split(a + [sep] + b + [sep] + c + [sep] + d, sep) == [a, b, c, d]
  {
    JoinFour(a, b, c, d, sep);
    SplitJoin([a, b, c, d], sep);
  }

  /** Five pieces free of the separator, joined by it, split back into those pieces. */
  lemma SplitFive(a: string, b: string, c: string, d: string, e: string, sep: char)
    requires sep !in a && sep !in b && sep !in c && sep !in d && sep !in e
    ensures Split(a + [sep] + b + [sep] + c + [sep] + d + [sep] + e, sep) == [a, b, c, d, e]
  {
    JoinFive(a, b, c, d, e, sep);
    SplitJoin([a, b, c, d, e], sep);
  }

  /** Four separator-free pieces, each followed by the separator, split into
      those pieces and then the pieces of whatever follows. */
  lemma SplitFourThen(a: string, b: string, c: string, d: string, y: string, sep: char)
    requires sep !in a && sep !in b && sep !in c && sep !in d
    ensures Split(a + [sep] + b + [sep] + c + [sep] + d + [sep] + y, sep) == [a, b, c, d] + Split(y, sep)
  {
    SplitFour(a, b, c, d, sep);
    SplitAround(a + [sep] + b + [sep] + c + [sep] + d, y, sep);
  }

  /** Whatever follows the fourth separator-free piece, if it ends the text or
      the next separator does, that piece is the fourth of the split. */
  lemma FourthPiece(a: string, b: string, c: string, d: string, rest: string, sep: char)
    requires sep !in a && sep !in b && sep !in c && sep !in d
    requires rest == [] || rest[0] == sep
    ensures |Split(a + [sep] + b + [sep] + c + [sep] + d + rest, sep)| >= 4
    ensures Split(a + [sep] + b + [sep] + c + [sep] + d + rest, sep)[3] == d
  {
    var x := a + [sep] + b + [sep] + c + [sep] + d;
    if rest == [] {
      assert x + rest == x;
      SplitFour(a, b, c, d, sep);
    } else {
      var y := rest[1..];
      assert x + rest == x + [sep] + y by {
        assert rest == [sep] + y;
      }
      SplitFourThen(a, b, c, d, y, sep);
    }
  }

  /** Four pieces joined by the separator, written out. */
  lemma JoinFour(a: string, b: string, c: string, d: string, sep: char)
    ensures Join([a, b, c, d], sep) == a + [sep] + b + [sep] + c + [sep] + d
  {
    var p := [a, b, c, d];
    assert p[1..][1..][1..] == [d];
    assert Join(p[1..][1..], sep) == c + [sep] + d;
    assert Join(p[1..], sep) == b + [sep] + (c + [sep] + d);
  }

  /** Five pieces joined by the separator, written out. */
  lemma JoinFive(a: string, b: string, c: string, d: string, e: string, sep: char)
    ensures Join([a, b, c, d, e], sep) == a + [sep] + b + [sep] + c + [sep] + d + [sep] + e
  {
    var p := [a, b, c, d, e];
    assert p[1..] == [b, c, d, e];
    JoinFour(b, c, d, e, sep);
  }

  /** Python's `lit in s`: `lit` occurs somewhere in `s` (the empty literal occurs everywhere). */
  predicate Contains(s: string, lit: string)
    decreases |s|
  {
    lit <= s || (|s| > 0 && Contains(s[1..], lit))
  }

  /** Contains agrees with the positional definition of an occurrence. */
  lemma {:induction false} ContainsIffOccurs(s: string, lit: string)
    ensures Contains(s, lit) <==> exists i :: 0 <= i <= |s| && lit <= s[i..]
    decreases |s|
  {
    if |s| > 0 {
      ContainsIffOccurs(s[1..], lit);
    }
    if Contains(s, lit) {
      if lit <= s {
        assert s[0..] == s;
      } else {
        var j :| 0 <= j <= |s[1..]| && lit <= s[1..][j..];
        assert s[1..][j..] == s[j + 1..];
      }
    }
    if exists i :: 0 <= i <= |s| && lit <= s[i..] {
      var i :| 0 <= i <= |s| && lit <= s[i..];
      if i == 0 {
        assert s[0..] == s;
      } else {
        assert s[1..][i - 1..] == s[i..];
      }
    }
  }

  /** An occurrence at a known position makes the test succeed. */
  lemma ContainsAt(s: string, lit: string, i: nat)
    requires i <= |s| && lit <= s[i..]
    ensures Contains(s, lit)
  {
    ContainsIffOccurs(s, lit);
  }

  /** A non-empty literal longer than the text cannot occur in it. */
  lemma {:induction false} ContainsShort(s: string, lit: string)
    requires |s| < |lit|
    ensures !Contains(s, lit)
    decreases |s|
  {
    if |s| > 0 {
      ContainsShort(s[1..], lit);
    }
  }

  predicate IsDigit(c: char) {
    '0' <= c <= '9'
  }

  function DigitChar(d: nat): (c: char)
    requires d < 10
    ensures IsDigit(c) && c as int - '0' as int == d
  {
    ('0' as int + d) as char
  }

  /** Python's `f"{n}"` for a non-negative integer: its decimal digits. */
  function Decimal(n: nat): (s: string)
    ensures |s| > 0
    ensures forall i :: 0 <= i < |s| ==> IsDigit(s[i])
    decreases n
  {
    if n < 10 then [DigitChar(n)] else Decimal(n / 10) + [DigitChar(n % 10)]
  }

  /** The number a string of decimal digits denotes. */
  function DigitsValue(s: string): nat
    requires forall i :: 0 <= i < |s| ==> IsDigit(s[i])
    decreases |s|
  {
    if |s| == 0 then 0
    else
      assert IsDigit(s[|s| - 1]);
      DigitsValue(s[..|s| - 1]) * 10 + (s[|s| - 1] as int - '0' as int)
  }

  /** Reading the rendered digits back gives the number: rendering loses nothing. */
  lemma {:induction false} DecimalValue(n: nat)
    ensures DigitsValue(Decimal(n)) == n
    decreases n
  {
    if n >= 10 {
      DecimalValue(n / 10);
      var s := Decimal(n);
      assert s[..|s| - 1] == Decimal(n / 10);
    }
  }

  /** Distinct counters render as distinct strings. */
  lemma DecimalInjective(a: nat, b: nat)
    requires Decimal(a) == Decimal(b)
    ensures a == b
  {
    DecimalValue(a);
    DecimalValue(b);
  }

  /** A run of digits ended by a non-digit can be read off unambiguously. */
  lemma DigitsPrefixUnique(da: string, ra: string, db: string, rb: string)
    requires forall i :: 0 <= i < |da| ==> IsDigit(da[i])
    requires forall i :: 0 <= i < |db| ==> IsDigit(db[i])
    requires |ra| > 0 && !IsDigit(ra[0]) && |rb| > 0 && !IsDigit(rb[0])
    requires da + ra == db + rb
    ensures da == db
  {
    var s := da + ra;
    DigitsThenOther(da, ra);
    DigitsThenOther(db, rb);
    assert |da| == |db|;
    assert da == s[..|da|] == db;
  }

  /** In digits followed by a non-digit, the digits end exactly where the non-digit starts. */
  lemma DigitsThenOther(d: string, r: string)
    requires forall i :: 0 <= i < |d| ==> IsDigit(d[i])
    requires |r| > 0 && !IsDigit(r[0])
    ensures forall i :: 0 <= i < |d| ==> IsDigit((d + r)[i])
    ensures !IsDigit((d + r)[|d|])
  {
  }
}

=== FILE: wellformed.dfy ===
/** What the scanner makes of a well-formed entity lump: one `{ ... }` block
    per deathmatch spawn, each with an origin line and a classname line. On
    such text parse_entities is exactly the parse of each origin value in
    order, and a BSP image carrying it goes through process_map end to end. */
module WellFormed {
  import opened Wrappers
  import opened Text
  import opened Geometry
  import opened Lump
  import opened Entities
  import opened Report

  /** A token that none of the scanner's delimiters can break apart. */
  predicate PlainToken(t: string) {
    ' ' !in t && '"' !in t && '\n' !in t && '}' !in t
  }

  /** The tokens of an origin value: at least one, none holding a delimiter. */
  predicate PlainTokens(toks: seq<string>) {
    |toks| > 0 && forall i :: 0 <= i < |toks| ==> PlainToken(toks[i])
  }

  /** `"origin" "<tokens separated by single spaces>"` */
  function OriginLine(toks: seq<string>): string {
    OriginKey + " \"" + Join(toks, ' ') + "\""
  }

  /** One spawn entity up to, not including, its closing brace. */
  function Record(toks: seq<string>): string {
    "{\n" + OriginLine(toks) + "\n" + Deathmatch + "\n"
  }

  /** The entity records of a map, one per spawn. */
  function Records(spawns: seq<seq<string>>): seq<string> {
    seq(|spawns|, k requires 0 <= k < |spawns| => Record(spawns[k]))
  }

  /** The entity text: every record followed by its closing brace. */
  function Render(spawns: seq<seq<string>>): string {
    Join(Records(spawns) + [""], '}')
  }

  /** The reference reading of a spawn list: each origin value parsed as
      `x, y, z = map(float, toks)`, in order, the first failure being the answer. */
  function ParseAll(spawns: seq<seq<string>>, number: string -> Option<real>): (r: Result<seq<Point>, ParseError>)
    ensures r.Success? <==> forall k :: 0 <= k < |spawns| ==> ParseTriple(spawns[k], number).Success?
    ensures r.Success? ==> |r.value| == |spawns|
    ensures r.Success? ==> forall k :: 0 <= k < |spawns| ==> r.value[k] == ParseTriple(spawns[k], number).value
    ensures r.Failure? ==>
              exists k :: 0 <= k < |spawns| && ParseTriple(spawns[k], number) == Failure(r.error)
                          && forall j :: 0 <= j < k ==> ParseTriple(spawns[j], number).Success?
    decreases |spawns|
  {
    if |spawns| == 0 then Success([])
    else
      assert forall k :: 0 < k < |spawns| ==> spawns[k] == spawns[1..][k - 1];
      match ParseTriple(spawns[0], number)
      case Failure(e) => Failure(e)
      case Success(p) =>
        match ParseAll(spawns[1..], number)
        case Failure(e) => Failure(e)
        case Success(ps) => Success([p] + ps)
  }

  /** The origin line splits on `"` into the key, the gap and the value. */
  lemma OriginSegments(toks: seq<string>)
    requires PlainTokens(toks)
    ensures Split(OriginLine(toks), '"') == ["", "origin", " ", Join(toks, ' '), ""]
  {
    var v := Join(toks, ' ');
    JoinAvoids(toks, ' ', '"');
    assert OriginLine(toks) == "" + "\"" + "origin" + "\"" + " " + "\"" + v + "\"" + "";
    SplitFive("", "origin", " ", v, "", '"');
  }

  /** The record splits on newlines into the brace, the origin line, the classname line and an empty tail. */
  lemma RecordLines(toks: seq<string>)
    requires PlainTokens(toks)
    ensures Split(Record(toks), '\n') == ["{", OriginLine(toks), Deathmatch, ""]
  {
    var line := OriginLine(toks);
    assert '\n' !in line by { OriginLineFree(toks, '\n'); }
    assert '\n' !in Deathmatch by { ClassnameFree(); }
    assert Record(toks) == "{" + "\n" + line + "\n" + Deathmatch + "\n" + "";
    SplitFour("{", line, Deathmatch, "", '\n');
  }

  /** A character missing from the tokens, the key and the quoting is missing from the origin line. */
  lemma OriginLineFree(toks: seq<string>, c: char)
    requires PlainTokens(toks)
    requires c == '\n' || c == '}'
    ensures c !in OriginLine(toks)
  {
    JoinAvoids(toks, ' ', c);
  }

  /** The classname line is one line and holds no closing brace. */
  lemma ClassnameFree()
    ensures '\n' !in Deathmatch && '}' !in Deathmatch
  {
  }

  /** No closing brace occurs inside a record. */
  lemma RecordBraceFree(toks: seq<string>)
    requires PlainTokens(toks)
    ensures '}' !in Record(toks)
  {
    OriginLineFree(toks, '}');
    ClassnameFree();
  }

  /** Every record carries the deathmatch classname. */
  lemma RecordIsSpawn(toks: seq<string>)
    ensures Contains(Record(toks), Deathmatch)
  {
    var rec := Record(toks);
    var k := |OriginLine(toks)| + 3;
    assert rec[k..] == Deathmatch + "\n";
    ContainsAt(rec, Deathmatch, k);
  }

  /** The origin line is the first line of a record that mentions the origin key. */
  lemma RecordOriginFirst(toks: seq<string>)
    requires PlainTokens(toks)
    ensures FirstMatch(Split(Record(toks), '\n'), OriginKey) == Some(1)
  {
    RecordLines(toks);
    OriginLineKey(toks);
    OriginLineSecond(Record(toks), OriginLine(toks));
  }

  /** Text whose lines are a brace, a line with the key and the classname line
      is first matched at its second line. */
  lemma OriginLineSecond(rec: string, line: string)
    requires Split(rec, '\n') == ["{", line, Deathmatch, ""]
    requires Contains(line, OriginKey)
    ensures FirstMatch(Split(rec, '\n'), OriginKey) == Some(1)
  {
    ContainsShort("{", OriginKey);
    FirstMatchSecond(Split(rec, '\n'), OriginKey);
  }

  /** The origin line starts with the origin key. */
  lemma OriginLineKey(toks: seq<string>)
    ensures Contains(OriginLine(toks), OriginKey)
  {
    var line := OriginLine(toks);
    assert OriginKey <= line[0..];
    ContainsAt(line, OriginKey, 0);
  }

  /** A key missing from the first line and present in the second is first matched at 1. */
  lemma FirstMatchSecond(lines: seq<string>, key: string)
    requires |lines| >= 2 && !Contains(lines[0], key) && Contains(lines[1], key)
    ensures FirstMatch(lines, key) == Some(1)
  {
    assert lines[1..][0] == lines[1];
  }

  /** The origin line's value is read back as the tokens it was built from. */
  lemma OriginValue(toks: seq<string>, number: string -> Option<real>)
    requires PlainTokens(toks)
    ensures ParseOrigin(OriginLine(toks), number) == ParseTriple(toks, number)
  {
    OriginSegments(toks);
    SplitJoin(toks, ' ');
  }

  /** A record contributes exactly the parse of its origin value. */
  lemma RecordPoint(toks: seq<string>, number: string -> Option<real>)
    requires PlainTokens(toks)
    ensures FragmentPoint(Record(toks), number) ==
              match ParseTriple(toks, number)
              case Success(p) => Success(Some(p))
              case Failure(e) => Failure(e)
  {
    RecordIsSpawn(toks);
    RecordOriginFirst(toks);
    RecordLines(toks);
    OriginValue(toks, number);
    SpawnFragmentPoint(Record(toks), OriginLine(toks), number);
  }

  /** A spawn fragment whose first origin line is its second line contributes that line's parse. */
  lemma SpawnFragmentPoint(frag: string, line: string, number: string -> Option<real>)
    requires Contains(frag, Deathmatch)
    requires |Split(frag, '\n')| > 1 && Split(frag, '\n')[1] == line
    requires FirstMatch(Split(frag, '\n'), OriginKey) == Some(1)
    ensures FragmentPoint(frag, number) ==
              match ParseOrigin(line, number)
              case Success(p) => Success(Some(p))
              case Failure(e) => Failure(e)
  {
  }

  /** The empty text after the last closing brace contributes nothing. */
  lemma TailPoint(number: string -> Option<real>)
    ensures FragmentPoint("", number) == Success(None)
  {
    ContainsShort("", Deathmatch);
  }

  /** The scan of one fragment followed by more. */
  lemma CollectCons(f: string, rest: seq<string>, number: string -> Option<real>)
    ensures CollectPoints([f] + rest, number) ==
              match FragmentPoint(f, number)
              case Failure(e) => Failure(e)
              case Success(head) =>
                match CollectPoints(rest, number)
                case Failure(e) => Failure(e)
                case Success(tail) => Success(match head case Some(p) => [p] + tail case None => tail)
  {
    assert ([f] + rest)[1..] == rest;
  }

  /** The records of a non-empty spawn list: the first record, then the rest. */
  lemma RecordsCons(spawns: seq<seq<string>>)
    requires |spawns| > 0
    ensures Records(spawns) + [""] == [Record(spawns[0])] + (Records(spawns[1..]) + [""])
  {
  }

  /** One more record in front adds its parse in front. */
  lemma CollectRecordsStep(spawns: seq<seq<string>>, number: string -> Option<real>)
    requires |spawns| > 0 && PlainTokens(spawns[0])
    requires CollectPoints(Records(spawns[1..]) + [""], number) == ParseAll(spawns[1..], number)
    ensures CollectPoints(Records(spawns) + [""], number) == ParseAll(spawns, number)
  {
    RecordsCons(spawns);
    CollectCons(Record(spawns[0]), Records(spawns[1..]) + [""], number);
    RecordPoint(spawns[0], number);
  }

  /** Text without records scans to no points. */
  lemma CollectTail(number: string -> Option<real>)
    ensures CollectPoints(Records([]) + [""], number) == ParseAll([], number)
  {
    assert Records([]) + [""] == [""] + [];
    CollectCons("", [], number);
    TailPoint(number);
  }

  /** Scanning the records and the empty tail is the reference reading. */
  lemma {:induction false} CollectRecords(spawns: seq<seq<string>>, number: string -> Option<real>)
    requires forall k :: 0 <= k < |spawns| ==> PlainTokens(spawns[k])
    ensures CollectPoints(Records(spawns) + [""], number) == ParseAll(spawns, number)
    decreases |spawns|
  {
    if |spawns| == 0 {
      CollectTail(number);
    } else {
      CollectRecords(spawns[1..], number);
      CollectRecordsStep(spawns, number);
    }
  }

  /** The `}`-fragments of the entity text are the records and an empty tail. */
  lemma RenderFragments(spawns: seq<seq<string>>)
    requires forall k :: 0 <= k < |spawns| ==> PlainTokens(spawns[k])
    ensures Split(Render(spawns), '}') == Records(spawns) + [""]
  {
    var frags := Records(spawns) + [""];
    forall k | 0 <= k < |frags|
      ensures '}' !in frags[k]
    {
      if k < |spawns| {
        RecordBraceFree(spawns[k]);
      }
    }
    SplitJoin(frags, '}');
  }

  /** parse_entities on well-formed entity text is the reference reading:
      the points in record order, or the first record's parse error. */
  lemma ParseRendered(spawns: seq<seq<string>>, number: string -> Option<real>)
    requires forall k :: 0 <= k < |spawns| ==> PlainTokens(spawns[k])
    ensures ParseEntities(Render(spawns), number) == ParseAll(spawns, number)
  {
    RenderFragments(spawns);
    CollectRecords(spawns, number);
  }

  /** Text holding a single record scans to that record's point, or its error. */
  lemma SingleRecord(toks: seq<string>, number: string -> Option<real>)
    requires PlainTokens(toks)
    ensures ParseEntities(Render([toks]), number) ==
              match ParseTriple(toks, number)
              case Success(p) => Success([p])
              case Failure(e) => Failure(e)
  {
    ParseRendered([toks], number);
    ParseAllOne(toks, number);
  }

  /** The reference reading of a single spawn. */
  lemma ParseAllOne(toks: seq<string>, number: string -> Option<real>)
    ensures ParseAll([toks], number) ==
              match ParseTriple(toks, number)
              case Success(p) => Success([p])
              case Failure(e) => Failure(e)
  {
    assert [toks][1..] == [];
    assert ParseAll([], number) == Success([]);
    match ParseTriple(toks, number)
    case Success(p) =>
      assert [p] + [] == [p];
    case Failure(_) =>
  }

  /** The origin `"1.5 -2.0 3.25"` yields the point (1.5, -2.0, 3.25). */
  lemma OneSpawn(toks: seq<string>, number: string -> Option<real>)
    requires toks == ["1.5", "-2.0", "3.25"]
    requires number("1.5") == Some(1.5) && number("-2.0") == Some(-2.0) && number("3.25") == Some(3.25)
    ensures ParseEntities(Render([toks]), number) == Success([Point(1.5, -2.0, 3.25)])
  {
    assert PlainTokens(toks) by {
      assert PlainToken(toks[0]) && PlainToken(toks[1]) && PlainToken(toks[2]);
    }
    var r := ParseTriple(toks, number);
    assert r.Success?;
    assert r.value == Point(1.5, -2.0, 3.25);
    SingleRecord(toks, number);
  }

  /** An origin with two values raises the unpacking error instead of being skipped. */
  lemma TwoValues(toks: seq<string>, number: string -> Option<real>)
    requires toks == ["1", "2"]
    requires number("1") == Some(1.0) && number("2") == Some(2.0)
    ensures ParseEntities(Render([toks]), number) == Failure(WrongArity(2))
  {
    assert PlainTokens(toks) by {
      assert PlainToken(toks[0]) && PlainToken(toks[1]);
    }
    var r := ParseTriple(toks, number);
    assert r.Failure? && !r.error.BadNumber?;
    SingleRecord(toks, number);
  }

  /** A bad fourth value is reported before the excess: the lazy map converts
      it while looking for a fourth value to complain about. */
  lemma BadFourth(toks: seq<string>, number: string -> Option<real>)
    requires toks == ["1", "2", "3", "x"]
    requires number("1") == Some(1.0) && number("2") == Some(2.0) && number("3") == Some(3.0)
    requires number("x") == None
    ensures ParseEntities(Render([toks]), number) == Failure(BadNumber("x"))
  {
    assert PlainTokens(toks) by {
      assert PlainToken(toks[0]) && PlainToken(toks[1]) && PlainToken(toks[2]) && PlainToken(toks[3]);
    }
    var r := ParseTriple(toks, number);
    assert r.Failure? && r.error.BadNumber? by {
      assert number(toks[3]).None?;
    }
    assert r.error.token == "x";
    SingleRecord(toks, number);
  }

  /** A bad fifth value is never converted: the count is wrong first. */
  lemma BadFifth(toks: seq<string>, number: string -> Option<real>)
    requires toks == ["1", "2", "3", "4", "x"]
    requires number("1") == Some(1.0) && number("2") == Some(2.0) && number("3") == Some(3.0) && number("4") == Some(4.0)
    requires number("x") == None
    ensures ParseEntities(Render([toks]), number) == Failure(WrongArity(5))
  {
    assert PlainTokens(toks) by {
      assert PlainToken(toks[0]) && PlainToken(toks[1]) && PlainToken(toks[2]) && PlainToken(toks[3]) && PlainToken(toks[4]);
    }
    var r := ParseTriple(toks, number);
    assert r.Failure? && !r.error.BadNumber? by {
      assert number(toks[0]).Some? && number(toks[1]).Some? && number(toks[2]).Some? && number(toks[3]).Some?;
    }
    assert r == Failure(WrongArity(5));
    SingleRecord(toks, number);
  }

  /** A BSP image whose first directory entry points past `pad` at the entity
      lump `ent`, with arbitrary bytes `tail` after it. */
  function BspImage(header: seq<byte>, pad: seq<byte>, ent: seq<byte>, tail: seq<byte>): (img: seq<byte>)
    requires |header| == HeaderSize && HeaderSize + LumpSize + |pad| < 0x8000_0000 && |ent| < 0x8000_0000
    ensures |img| == HeaderSize + LumpSize + |pad| + |ent| + |tail|
  {
    header + EncodeInt32(HeaderSize + LumpSize + |pad|) + EncodeInt32(|ent|) + pad + ent + tail
  }

  /** The directory entry of an image reads as the lump's place, and reading
      there returns exactly the lump, whatever surrounds it. */
  lemma ImageEntities(header: seq<byte>, pad: seq<byte>, ent: seq<byte>, tail: seq<byte>)
    requires |header| == HeaderSize && HeaderSize + LumpSize + |pad| < 0x8000_0000 && |ent| < 0x8000_0000
    ensures ReadLumpInfo(BspImage(header, pad, ent, tail), LumpEntities) == Success(LumpInfo(HeaderSize + LumpSize + |pad|, |ent|))
    ensures ReadBytes(BspImage(header, pad, ent, tail), HeaderSize + LumpSize + |pad|, |ent|) == Success(ent)
  {
    var img := BspImage(header, pad, ent, tail);
    var pos := DirectoryPosition(LumpEntities);
    var start := HeaderSize + LumpSize + |pad|;
    assert img[pos..pos + 4] == EncodeInt32(start);
    assert img[pos + 4..pos + 8] == EncodeInt32(|ent|);
    DecodeEncode(start);
    DecodeEncode(|ent|);
    assert img[start..start + |ent|] == ent;
  }

  /** The spawn points of an image are the scan of its decoded entity lump:
      the text is taken at the offset and length the directory entry gives. */
  lemma ImageSpawnPoints(header: seq<byte>, pad: seq<byte>, ent: seq<byte>, tail: seq<byte>, codec: Codec)
    requires |header| == HeaderSize && HeaderSize + LumpSize + |pad| < 0x8000_0000 && |ent| < 0x8000_0000
    ensures SpawnPointsOf(BspImage(header, pad, ent, tail), codec) ==
              match ParseEntities(codec.decode(ent), codec.number)
              case Failure(e) => Failure(EntityFailure(e))
              case Success(pts) => Success(pts)
  {
    ImageEntities(header, pad, ent, tail);
  }

  /** process_map on an image whose entity lump decodes to well-formed text:
      the counter moves by one, and the outcome is the reference reading's error,
      nothing for a map without spawns, or the laid-out report of its points. */
  lemma ProcessImage(count: nat, path: string, header: seq<byte>, pad: seq<byte>, ent: seq<byte>, tail: seq<byte>,
                     codec: Codec, spawns: seq<seq<string>>)
    requires |header| == HeaderSize && HeaderSize + LumpSize + |pad| < 0x8000_0000 && |ent| < 0x8000_0000
    requires codec.decode(ent) == Render(spawns)
    requires forall k :: 0 <= k < |spawns| ==> PlainTokens(spawns[k])
    ensures ProcessMap(count, path, BspImage(header, pad, ent, tail), codec) ==
              Processed(count + 1,
                match ParseAll(spawns, codec.number)
                case Failure(e) => Failure(EntityFailure(e))
                case Success(pts) =>
                  if |pts| == 0 then Success(None)
                  else Success(Some(Layout(BuildReport(Label(count + 1, path), pts), codec.show))))
  {
    ImageSpawnPoints(header, pad, ent, tail, codec);
    ParseRendered(spawns, codec.number);
  }
}

=== FILE: wrappers.dfy ===
/** Result types shared by every stage of the spawn-point pipeline. */
module Wrappers {

  /** An optional value: the Python code's `None` versus a present value. */
  datatype Option<+T> = None | Some(value: T)

  /** A value or the error that the Python code would raise instead of returning. */
  datatype Result<+T, +E> = Success(value: T) | Failure(error: E)
}
